=== FILE: README.md ===
# Gas-price grounding for an agent's chat loop

This project models two files of the agent framework:

- `src/actions/api_tools_actions.py` holds the network alias table and its two lookups (alias to chain id, chain id to display name). It also holds the `get-gas-price` and `get-transaction-history` actions and the two rule-based intent detectors.
- `src/actions/ollama_actions.py` holds the `ollama-chat` loop. Each turn it detects a gas-price question and fetches prices through the api-tools connection. It then formats them, injects them into the chat history with a template, and checks the model's reply for the data, appending the template when the reply lacks it.

Modules, in dependency order:

- `Common`: `Option` and Python truthiness of an optional string.
- `Text`: ASCII `str.lower` and `str.capitalize`, and the `in` substring test as `Contains`.
- `Patterns`: the regular-expression fragment the detectors use. It has literals, concatenation and `(?:a|b)` alternation. The matcher `Ends` computes the set of every end position at which a pattern can match from a given start. It is proved to agree with the finite phrase set `Words` a pattern denotes, so `re.search` succeeds exactly when the text contains a phrase.
- `Chains`: `NETWORK_TO_CHAIN_ID` as an ordered list of pairs (dictionary order matters for the reverse scan), the lookups, and the resolution prologue shared by both actions.
- `Detect`: `detect_gas_price_query` and `detect_transaction_history_query`, including the `0x` + 40 hex digits address scan.
- `ApiTools`: the two actions. The api-tools connection is an oracle `Call -> Reply`: it answers with a decoded JSON object (failures under the `"error"` key) or raises.
- `Chat`: the pieces of one turn (formatting, template, augmentation, verification), the turn itself as a pure function `Step` over a `LoopState`, and a session of turns. `Chat.Session` iterates the loop as written (`Step`). `Chat.SessionScoped` iterates the corrected loop (`StepScoped`), whose locals are scoped to the turn.

`LoopState` carries `formatted_values` and `template_response` as options. The loop never clears them: Python function locals keep the value of the last turn that assigned them. This is what the "## Findings" row is about.

Where the intended design and the code differ, the model follows the code:

- The tool branch runs when a connection named `api_tools` is registered (`"api_tools" in connections`), not when that connection reports itself configured. `Env.apiTools` is that membership test.
- The reply check looks for field names (`low`, `Low`, `baseFee`, `Base Fee`, ...), never for the fetched values (`Chat.VerifierIgnoresValues`).
- The chat loop never calls the transaction-history detector or action. They are modelled as stand-alone operations.
- The verifier reads whatever template the locals last held, not this turn's template (see "## Findings").
- Verifying an already corrected reply again is harmless when at least one field was formatted (`Chat.VerifyIdempotent`). When the payload had none of the five fields, the template names nothing the check looks for, and a second verification appends the correction again (`Chat.VerifyRepeatsWithoutFields`). The loop verifies each reply once, so this never shows in a session.

## Model

| member | source | states |
|---|---|---|
| Chains.KeysDistinct | src/actions/api_tools_actions.py:9-24 | the fourteen aliases are pairwise distinct, so the ordered list is a faithful dictionary |
| Chains.ChainIdOf | src/actions/api_tools_actions.py:37-42 | `NETWORK_TO_CHAIN_ID.get(alias)`: none exactly when the alias is not a key; otherwise the chain id paired with that alias in the table |
| Chains.ChainIdOfEntry | src/actions/api_tools_actions.py:9-24 | looking up any key gives the chain id written next to it |
| Chains.DisplayNameIsFirstAlias | src/actions/api_tools_actions.py:49-53 | the display name of a listed chain id is the capitalised first alias carrying it, in definition order |
| Chains.DisplayNameUnknown | src/actions/api_tools_actions.py:54-55 | a chain id no alias carries is displayed as `Chain ID {id}` |
| Chains.DisplayNameEthereum | src/actions/api_tools_actions.py:49-53 | "1" displays as Ethereum, the first of its aliases, not Eth or Mainnet |
| Chains.DisplayNamePolygon | src/actions/api_tools_actions.py:49-53 | "137" displays as Polygon, not Matic |
| Chains.DisplayNameAvalanche | src/actions/api_tools_actions.py:49-53 | "43114" displays as Avalanche, not Avax |
| Chains.DisplayNameUnlisted | src/actions/api_tools_actions.py:54-55 | "999" displays as `Chain ID 999` |
| Chains.Resolve | src/actions/api_tools_actions.py:36-55 | a truthy chain id wins and is used as given; otherwise a truthy network is lower-cased and must be a key, failing as unknown network exactly when it is not, and resolving to the chain id paired with that key; with neither, chain "1" shown as Ethereum; a resolved chain id is non-empty and shown by its display name |
| Chains.AliasRoundTrip | src/actions/api_tools_actions.py:36-55 | every alias, in any letter case, resolves to its own chain id and that id's display name |
| ApiTools.Settle | src/actions/api_tools_actions.py:60-86 | after the connection call the action returns the payload exactly when it is a non-empty object without an `"error"` key, returns False for any other answer, and lets a raised exception through |
| ApiTools.GetGasPrice | src/actions/api_tools_actions.py:27-86 | the connection is called with the resolved chain id ("1" by default), not at all for an unknown network (the action then returns False); the payload is returned exactly when the connection's answer is accepted, False for any other answer, and an exception gets out exactly when the connection raised |
| ApiTools.GetTransactionHistory | src/actions/api_tools_actions.py:117-190 | the connection is called exactly when the network resolves and the wallet is truthy, with that wallet and chain id; the payload is returned exactly when the answer is accepted and its `"pagination"` entry, if any, is a dict; the action raises when the connection raises or when an accepted payload's pagination is not a dict (`.items()` fails) |
| ApiTools.KnownEntryCall | src/actions/api_tools_actions.py:37-42 | the gas action handed the alias of any table entry calls the connection with that entry's chain id |
| ApiTools.GasPriceBscCall | src/actions/ollama_actions.py:60-67 | the turn "gas price bsc" makes the gas action call the connection on chain 56 |
| ApiTools.GasPriceEthereumCall | src/actions/ollama_actions.py:60-67 | the turn "gas price" makes the gas action call the connection on chain 1 |
| ApiTools.KnownAliasResolves | src/actions/api_tools_actions.py:37-42 | any table alias handed to the gas action is looked up and the connection called with its chain id |
| ApiTools.DetectedGasNetworkResolves | src/actions/ollama_actions.py:60-67 | the network the gas detector reports never hits the unknown-network branch of the gas action |
| ApiTools.KnownAliasHistory | src/actions/api_tools_actions.py:128-150 | the history action with a table alias calls the connection exactly when a wallet is given, on that alias's chain |
| ApiTools.DetectedTxNetworkResolves | src/actions/api_tools_actions.py:214-229 | the history action fed the history detector's output calls the connection exactly when an address was found, on the detected network's chain |
| Patterns.EndsSound | src/actions/api_tools_actions.py:103 | every end position the matcher reports closes an occurrence of a phrase of the pattern |
| Patterns.EndsComplete | src/actions/api_tools_actions.py:103 | every occurrence of a phrase of the pattern is reported by the matcher |
| Patterns.SearchIff | src/actions/api_tools_actions.py:103 | `re.search(p, t)` succeeds if and only if `t` contains a phrase of `p` |
| Patterns.AnyMatchIff | src/actions/api_tools_actions.py:103 | `any(re.search(p, t) for p in ps)` holds if and only if `t` contains a phrase of some pattern of `ps` |
| Patterns.ChoiceWords | src/actions/api_tools_actions.py:95-100 | an alternation of literal words denotes exactly those words, in order |
| Detect.FirstGasPatternPhrases | src/actions/api_tools_actions.py:95 | the first gas pattern denotes the eighteen phrases: one of six openings, a space, and "gas", "gas price" or "gas fee" |
| Detect.MentionedNetwork | src/actions/api_tools_actions.py:109-114 | the reported network is the first alias in definition order occurring in the lower-cased text, "ethereum" when none occurs |
| Detect.DetectGas | src/actions/api_tools_actions.py:88-114 | none exactly when no gas pattern matches the lower-cased text; otherwise a table alias: the first one the text mentions, or "ethereum" |
| Detect.DetectGasPhrases | src/actions/api_tools_actions.py:94-106 | the gas detector returns None exactly when the lower-cased text contains none of the phrases the five gas patterns denote |
| Detect.DetectsGasPrice | src/actions/api_tools_actions.py:96 | the bare text "gas price" is a gas intent with a non-empty network |
| Detect.GasPriceOnEthereum | src/actions/api_tools_actions.py:103-114 | "gas price" is a gas intent naming no network, so it is reported as "ethereum" |
| Detect.GasPriceNamesNoNetwork | src/actions/api_tools_actions.py:109-114 | no alias of the table occurs in "gas price" |
| Detect.GasPriceOnBsc | src/actions/api_tools_actions.py:103-114 | "gas price bsc" is a gas intent reported as "bsc" |
| Detect.BscFirstMentioned | src/actions/api_tools_actions.py:109-114 | "bsc" is the first alias, in definition order, that "gas price bsc" contains |
| Detect.DetectGasIgnoresCase | src/actions/api_tools_actions.py:103-110 | texts equal up to letter case get the same answer |
| Detect.FindAddress | src/actions/api_tools_actions.py:206-216 | none exactly when no `0x` + 40 hex digits occurs in the original text; otherwise the leftmost such 42-character match |
| Detect.DetectTx | src/actions/api_tools_actions.py:192-229 | (None, None) exactly when no history pattern matches the lower-cased text; otherwise the leftmost 42-character address of the original text (if any) and the first mentioned network, "ethereum" by default |
| Detect.DetectTxPhrases | src/actions/api_tools_actions.py:198-212 | the history detector returns (None, None) exactly when the lower-cased text contains none of the phrases the four history patterns denote |
| Detect.DetectorsAgreeOnNetwork | src/actions/api_tools_actions.py:219-227 | on text both detectors accept, they report the same network |
| Chat.RenderExamples | src/actions/ollama_actions.py:78-85 | a nested speed renders as `{max: 12, tip: 1}`, a nested baseFee as the dict's own `str`, a plain value as itself |
| Chat.FormatFrom | src/actions/ollama_actions.py:77-125 | every formatted field is a payload key, rendered from its value, in the fixed low/standard/fast/instant/baseFee order |
| Chat.FormatFromShows | src/actions/ollama_actions.py:77-125 | every one of the five keys the payload has is formatted |
| Chat.FormatGasFields | src/actions/ollama_actions.py:71-125 | the gas-info block starts with the fixed header; the formatted fields are exactly the five keys present, in order, each rendered from its value |
| Chat.StandardOnlyFormat | src/actions/ollama_actions.py:89-98 | a payload with only a standard price formats to that single field |
| Chat.Template | src/actions/ollama_actions.py:128-133 | the template starts with the capitalised network header and contains one `- Caption: value Gwei` line per formatted field |
| Chat.LabelsAgree | src/actions/ollama_actions.py:130-133 | the template's computed captions equal the captions the gas-info block hard-codes |
| Chat.GasInfoAgreesWithTemplate | src/actions/ollama_actions.py:71-133 | the gas-info block and the template list the very same field lines, under different headers |
| Chat.LowOnlyFormat | src/actions/ollama_actions.py:77-88 | a payload with only a low price formats to that single field |
| Chat.StandardLineInTemplate | src/actions/ollama_actions.py:128-133 | the template of any network for a standard price of 40 contains `- Standard: 40 Gwei` |
| Chat.Instruction | src/actions/ollama_actions.py:142-151 | the appended system message contains the template |
| Chat.Augment | src/actions/ollama_actions.py:135-151 | one message is added; earlier messages are untouched; the last message keeps its role and now starts with the user's text and the gas-info block; the new system message contains the template |
| Chat.Verify | src/actions/ollama_actions.py:162-184 | the reply is always kept as a prefix; it is unchanged when it names a gas field or no template exists, and otherwise the fixed correction and the template are appended |
| Chat.TemplateMentionsField | src/actions/ollama_actions.py:172-174 | a template built from at least one field passes the presence check for those fields |
| Chat.VerifiedReplyMentionsData | src/actions/ollama_actions.py:166-181 | with at least one formatted field, every verified reply passes the presence check |
| Chat.VerifyIdempotent | src/actions/ollama_actions.py:166-184 | with at least one formatted field, verifying twice gives the same reply as verifying once |
| Chat.VerifyRepeatsWithoutFields | src/actions/ollama_actions.py:166-181 | with no formatted field, a second verification appends the correction again |
| Chat.VerifierIgnoresValues | src/actions/ollama_actions.py:172-174 | a reply quoting a wrong price under the right caption is accepted unchanged |
| Chat.Start | src/actions/ollama_actions.py:43-48 | the history starts as the single combined system prompt, with no gas data |
| Chat.ExitWords | src/actions/ollama_actions.py:52 | "exit" and "quit" end the session in any letter case; text around them does not |
| Chat.Grounding | src/actions/ollama_actions.py:67-133 | on a grounded turn the connection answered for the detected network's chain; every formatted field is a key of that answer rendered from its value, and each of the five gas keys the answer has is formatted; the gas-info block is its header followed by the field lines, and the template is the network header followed by the same lines |
| Chat.PrepareShape | src/actions/ollama_actions.py:56-151 | before the chat call the history is the old one plus the user message, rewritten and followed by the template message exactly when the turn fetched data; carried fields and template are replaced only then |
| Chat.RespondShape | src/actions/ollama_actions.py:155-192 | an assistant message is appended exactly when the reply is truthy, and it starts with the reply |
| Chat.Step | src/actions/ollama_actions.py:50-192 | the loop as written: it ends exactly on an exit word; otherwise the old history stays a prefix, the model sees exactly the history up to the augmentation, the reply is appended verbatim unless the tool branch ran, and carried fields and template change only on a turn that fetched data |
| Chat.GatedStepVerifies | src/actions/ollama_actions.py:155-190 | on a turn of the loop as written where the tool branch ran, a truthy reply is stored exactly once, as the verifier leaves it given the fields and template the turn ends up holding |
| Chat.GroundedStepStoresVerified | src/actions/ollama_actions.py:62-190 | on a turn that fetched data, a truthy reply is stored as verified against this turn's own fields and template |
| Chat.GroundedStepMentions | src/actions/ollama_actions.py:162-190 | on a turn that fetched data and formatted at least one field, the stored reply always names a formatted field |
| Chat.StaleTemplateCorrection | src/actions/ollama_actions.py:172-181 | as written, a turn whose tool call fetched nothing corrects a reply with the template of an earlier turn |
| Chat.StaleTemplateReached | src/actions/ollama_actions.py:50-192 | from the start of a session, "gas price bsc" fetches a low price on chain 56 and records it with the BSC template; the next turn, "gas price", asks about chain 1, whose call raises, and the reply "ok" is stored with the correction and the BSC template |
| Chat.StaleSecondTurn | src/actions/ollama_actions.py:162-190 | after any turn that recorded the low price, the turn "gas price" stores "ok" followed by the correction and the recorded template |
| Chat.BscFirstTurn | src/actions/ollama_actions.py:50-151 | the first turn "gas price bsc" continues the session and records the low price and the BSC template |
| Chat.BscTurnGrounded | src/actions/ollama_actions.py:60-69 | a connection answering chain 56 with a low price grounds the turn "gas price bsc" |
| Chat.BscTurnFields | src/actions/ollama_actions.py:60-133 | with such a connection, the turn "gas price bsc" is grounded and formats exactly the low price, under the BSC template |
| Chat.GasPriceIsGated | src/actions/ollama_actions.py:60-69 | with an `api_tools` connection, "gas price" runs the tool branch, and a connection that raises on chain 1 grounds nothing |
| Chat.StepScoped | src/actions/ollama_actions.py:50-192 | the loop with per-turn locals: the same history shape as `Step`, and a turn that fetched nothing carries no fields or template |
| Chat.ScopedAgreesWhenGrounded | src/actions/ollama_actions.py:62-151 | on a turn that fetched data the scoped loop and the loop as written do the same thing |
| Chat.ScopedCorrectionUsesCurrentTemplate | src/actions/ollama_actions.py:172-181 | with per-turn locals, a reply is only changed on a turn that fetched data, and then only by appending the correction and that turn's template |
| Chat.ScopedKeepsReply | src/actions/ollama_actions.py:162-190 | with per-turn locals, a truthy reply on a turn that fetched nothing is stored verbatim |
| Chat.Session | src/actions/ollama_actions.py:50-57 | over a session of the loop as written, the history only grows: each turn keeps the earlier history as a prefix |
| Chat.SessionKeepsSystemPrompt | src/actions/ollama_actions.py:45-48 | in a session of the loop as written, the combined system prompt stays the first message |
| Chat.SessionStopsAtExit | src/actions/ollama_actions.py:50-54 | in a session of the loop as written, nothing typed after an exit word is read |
| Chat.SessionScoped | src/actions/ollama_actions.py:50-57 | a session of the corrected loop also keeps the earlier history as a prefix |
| Chat.SessionScopedClearsLocals | src/actions/ollama_actions.py:172-181 | after a session of the corrected loop whose last turn fetched nothing, no fields or template are held |

## Left out

- `src/connections/api_tools_connection.py` is not part of this model. HTTP requests, the API key from `.env`, `configure` and `is_configured` are replaced by the `Call -> Reply` oracle and the boolean `Env.apiTools`.
- A connection result that is not a JSON object (a list or a string) is not modelled. Payloads are `map<string, Value>`, and Python `str()` of a non-dict value is taken as pre-rendered text.
- The action registry and `execute_action` are not part of this model. The loop calls `ApiTools.GetGasPrice` directly, with the detected network and no chain id.
- The chat model is an oracle from the history it is shown to an optional reply. An exception raised by it is not modelled: the source does not catch it either.
- `agent._construct_system_prompt` and the personality directive text are not modelled. `Chat.Start` takes the combined prompt as a parameter.
- Logging and `print_h_bar` output are not modelled. Of the history action's log loops only the pagination loop's failure is modelled (see the next line).
- ApiTools.GetTransactionHistory: does not raise when an accepted payload's `"events"` entry is not iterable (`enumerate` of a JSON number or null raises `TypeError`), because `Value` renders every non-dict value as text and cannot tell a list from a number.
- A session takes one `Env`, so the connection gives the same answer to the same call on every turn. A connection that answers a chain on one turn and fails on it later cannot be expressed (the stale-template scenario therefore uses two different chains). No proved property depends on this.
- Unicode case mapping is not modelled. `Lower` and `Capitalize` map ASCII letters only.
- Exceptions inside the formatting block (a failing `str()`) are not modelled. Only a raising connection call reaches the `except` branch.
- `main.py` and the CLI bootstrap are not modelled.
- Transaction-record normalisation (wei conversion, USD value) is not modelled. No such code exists in these files.

## Findings

| source | as written | input that shows it | evidently intended | confidence | as-written member | corrected member |
|---|---|---|---|---|---|---|
| src/actions/ollama_actions.py:172-181 | `formatted_values` and `template_response` are tested with `in locals()`. Function locals persist across loop iterations, so a turn that detects a gas question but fetches nothing verifies the reply against the previous turn's fields. It then appends the previous turn's template. | The connection answers chain 56 with a low price and raises on chain 1; the model always replies "ok". The user types "gas price bsc", then "gas price". The second reply is stored as "ok", the correction, then the BSC template of the first turn. | Only a template built on the current turn should be appended. | not executed; high | Chat.StaleTemplateReached | Chat.ScopedCorrectionUsesCurrentTemplate |

=== FILE: api_tools.dfy ===
/**
 * The two actions of `src/actions/api_tools_actions.py`, `get_gas_price` and
 * `get_transaction_history`, with the api-tools connection as an oracle: a call either answers with a
 * decoded JSON payload (an error map on upstream failure) or raises.
 */
module ApiTools {
  import opened Common
  import opened Text
  import opened Chains
  import opened Detect

  /** A field of a decoded JSON payload. */
  datatype Value =
    | Scalar(text: string)                                 // any non-dict value, as `str(value)` renders it
    | Nested(entries: seq<(string, string)>, repr: string) // a dict: its items in order, and `str(dict)`

  /** A decoded JSON object; failures are reported under the "error" key. */
  type Payload = map<string, Value>

  /** A request handed to the api-tools connection. */
  datatype Call = GasPriceCall(chainId: string) | HistoryCall(wallet: string, chainId: string)

  /** What the connection does with a call: answer with a payload, or raise. */
  datatype Reply = Answer(payload: Payload) | Raise(message: string)

  /** What an action hands back: `False`, the payload, or an exception propagating out of it. */
  datatype ActionResult = Failed | Fetched(payload: Payload) | Raised(message: string)

  /** The connection call an action made, if any, and its result. */
  datatype Run = Run(call: Option<Call>, result: ActionResult)

  /** `result and "error" not in result`: a non-empty payload without the error sentinel. */
  predicate Accepted(p: Payload)
  {
    |p| > 0 && "error" !in p
  }

  /** The common tail of both actions once the connection has been called. */
  function Settle(call: Call, reply: Reply): (run: Run)
    ensures run.call == Some(call)
    ensures run.result.Fetched? <==> reply.Answer? && Accepted(reply.payload)
    ensures run.result.Fetched? ==> reply == Answer(run.result.payload)
    ensures run.result.Raised? <==> reply.Raise?
    ensures run.result.Raised? ==> reply == Raise(run.result.message)
  {
    match reply
    case Raise(m) => Run(Some(call), Raised(m))
    case Answer(p) => if Accepted(p) then Run(Some(call), Fetched(p)) else Run(Some(call), Failed)
  }

  /** `get_gas_price(agent, network=..., chain_id=...)`. */
  function GetGasPrice(network: Option<string>, chainId: Option<string>, api: Call -> Reply): (run: Run)
    ensures Truthy(chainId) ==> run.call == Some(GasPriceCall(chainId.value))
    ensures !Truthy(chainId) && !Truthy(network) ==> run.call == Some(GasPriceCall("1"))
    ensures !Truthy(chainId) && Truthy(network) ==>
              (run.call.None? <==> !IsNetwork(Lower(network.value)))
    ensures !Truthy(chainId) && Truthy(network) && run.call.Some? ==>
              run.call == Some(GasPriceCall(ChainIdOf(Lower(network.value)).value))
    ensures run.call.None? ==> run.result == Failed
    ensures run.call.Some? ==> run.call.value.GasPriceCall?
    ensures run.result.Fetched? <==>
              run.call.Some? && api(run.call.value).Answer? && Accepted(api(run.call.value).payload)
    ensures run.result.Fetched? ==> api(run.call.value) == Answer(run.result.payload)
    ensures run.result.Raised? <==> run.call.Some? && api(run.call.value).Raise?
    ensures run.result.Failed? <==>
              run.call.None? || (api(run.call.value).Answer? && !Accepted(api(run.call.value).payload))
  {
    match Resolve(network, chainId)
    case UnknownNetwork(_) => Run(None, Failed)
    case Resolved(cid, _) => Settle(GasPriceCall(cid), api(GasPriceCall(cid)))
  }

  /** The history action logs an accepted payload's `"pagination"` entry with `.items()`, which raises
      unless that entry is a dict. */
  predicate PaginationNotDict(p: Payload)
  {
    "pagination" in p && p["pagination"].Scalar?
  }

  const NoItems := "object has no attribute 'items'"

  /** `get_transaction_history(agent, wallet_address=..., network=..., chain_id=...)`. */
  function GetTransactionHistory(wallet: Option<string>, network: Option<string>, chainId: Option<string>,
                                 api: Call -> Reply): (run: Run)
    ensures Resolve(network, chainId).UnknownNetwork? ==> run == Run(None, Failed)
    ensures !Truthy(wallet) ==> run == Run(None, Failed)
    ensures run.call.Some? <==> Resolve(network, chainId).Resolved? && Truthy(wallet)
    ensures run.call.Some? ==>
              run.call.value == HistoryCall(wallet.value, Resolve(network, chainId).chainId)
    ensures Truthy(chainId) && Truthy(wallet) ==> run.call == Some(HistoryCall(wallet.value, chainId.value))
    ensures run.result.Fetched? <==>
              && run.call.Some? && api(run.call.value).Answer?
              && Accepted(api(run.call.value).payload) && !PaginationNotDict(api(run.call.value).payload)
    ensures run.result.Fetched? ==> api(run.call.value) == Answer(run.result.payload)
    ensures run.result.Raised? <==>
              && run.call.Some?
              && (|| api(run.call.value).Raise?
                  || (Accepted(api(run.call.value).payload) && PaginationNotDict(api(run.call.value).payload)))
  {
    match Resolve(network, chainId)
    case UnknownNetwork(_) => Run(None, Failed)
    case Resolved(cid, _) =>
      if !Truthy(wallet) then Run(None, Failed)
      else
        var call := HistoryCall(wallet.value, cid);
        var run := Settle(call, api(call));
        if run.result.Fetched? && PaginationNotDict(run.result.payload) then Run(Some(call), Raised(NoItems))
        else run
  }

  /** Any table alias handed to the gas action is looked up, never rejected. */
  lemma KnownAliasResolves(n: string, api: Call -> Reply)
    requires IsNetwork(n)
    ensures GetGasPrice(Some(n), None, api).call == Some(GasPriceCall(ChainIdOf(n).value))
  {
    var j :| 0 <= j < |NetworkTable| && NetworkTable[j].0 == n;
    AliasesAreLowerCase(j);
  }

  /** A network reported by the gas detector never hits the unknown-network branch of the action. */
  lemma DetectedGasNetworkResolves(text: string, api: Call -> Reply)
    requires DetectGas(text).Some?
    ensures GetGasPrice(DetectGas(text), None, api).call ==
              Some(GasPriceCall(ChainIdOf(DetectGas(text).value).value))
  {
    KnownAliasResolves(DetectGas(text).value, api);
  }

  /** Any table alias handed to the history action is looked up; the connection is called exactly
      when a wallet is given. */
  lemma KnownAliasHistory(wallet: Option<string>, n: string, api: Call -> Reply)
    requires IsNetwork(n)
    ensures GetTransactionHistory(wallet, Some(n), None, api).call ==
              if Truthy(wallet) then Some(HistoryCall(wallet.value, ChainIdOf(n).value)) else None
  {
    var j :| 0 <= j < |NetworkTable| && NetworkTable[j].0 == n;
    AliasesAreLowerCase(j);
    ChainIdOfEntry(j);
    AliasRoundTrip(j, n);
  }

  /** A detected address is never empty, so the history action calls the connection exactly when the
      detector found an address, on the chain of the detected network. */
  lemma DetectedTxNetworkResolves(text: string, api: Call -> Reply)
    requires DetectTx(text).1.Some?
    ensures GetTransactionHistory(DetectTx(text).0, DetectTx(text).1, None, api).call ==
              if DetectTx(text).0.Some?
              then Some(HistoryCall(DetectTx(text).0.value, ChainIdOf(DetectTx(text).1.value).value))
              else None
  {
    var r := DetectTx(text);
    KnownAliasHistory(r.0, r.1.value, api);
  }

  /** Handing the gas action the alias of entry `j` calls the connection with that entry's chain id. */
  lemma KnownEntryCall(j: nat, api: Call -> Reply)
    requires j < |NetworkTable|
    ensures GetGasPrice(Some(NetworkTable[j].0), None, api).call == Some(GasPriceCall(NetworkTable[j].1))
  {
    ChainIdOfEntry(j);
    KnownAliasResolves(NetworkTable[j].0, api);
  }

  /** "gas price bsc" makes the gas action call the connection on chain 56. */
  lemma GasPriceBscCall(api: Call -> Reply)
    ensures GetGasPrice(DetectGas("gas price bsc"), None, api).call == Some(GasPriceCall("56"))
  {
    GasPriceOnBsc();
    assert NetworkTable[4].0 == "bsc" && NetworkTable[4].1 == "56";
    KnownEntryCall(4, api);
  }

  /** "gas price" makes the gas action call the connection on chain 1. */
  lemma GasPriceEthereumCall(api: Call -> Reply)
    ensures GetGasPrice(DetectGas("gas price"), None, api).call == Some(GasPriceCall("1"))
  {
    GasPriceOnEthereum();
    KnownEntryCall(0, api);
  }
}

=== FILE: chains.dfy ===
/**
 * The network/chain resolver of `src/actions/api_tools_actions.py`: the fixed, ordered alias table,
 * alias -> chain id lookup, the chain id -> display-name reverse lookup, and the resolution rules
 * shared by the gas-price and transaction-history actions.
 */
module Chains {
  import opened Common
  import opened Text

  /** `NETWORK_TO_CHAIN_ID` in definition order: (lower-case alias, chain id). Order matters for the
      reverse lookup and for the detectors' network scan. */
  const NetworkTable: seq<(string, string)> := [
    ("ethereum", "1"),
    ("eth", "1"),
    ("mainnet", "1"),
    ("binance", "56"),
    ("bsc", "56"),
    ("polygon", "137"),
    ("matic", "137"),
    ("avalanche", "43114"),
    ("avax", "43114"),
    ("arbitrum", "42161"),
    ("optimism", "10"),
    ("base", "8453"),
    ("fantom", "250"),
    ("ftm", "250")
  ]

  /** `alias` is a key of the table. */
  predicate IsNetwork(alias: string)
  {
    exists j :: 0 <= j < |NetworkTable| && NetworkTable[j].0 == alias
  }

  /** No alias is empty, so a detected network is always truthy. */
  lemma NetworkNonEmpty(alias: string)
    requires IsNetwork(alias)
    ensures |alias| > 0
  {
  }

  /** Table aliases are already lower case, so lower-casing a detected network changes nothing. */
  lemma AliasesAreLowerCase(j: nat)
    requires j < |NetworkTable|
    ensures Lower(NetworkTable[j].0) == NetworkTable[j].0
  {
  }

  /** Table keys are pairwise distinct, so the table is a dictionary. */
  lemma KeysDistinct()
    ensures forall j, k :: 0 <= j < k < |NetworkTable| ==> NetworkTable[j].0 != NetworkTable[k].0
  {
  }

  /** Index of the first entry at or after `from` whose key is `alias`. */
  function KeyIndexFrom(alias: string, from: nat): (r: Option<nat>)
    requires from <= |NetworkTable|
    ensures r.Some? ==> from <= r.value < |NetworkTable| && NetworkTable[r.value].0 == alias
    ensures r.None? ==> forall j :: from <= j < |NetworkTable| ==> NetworkTable[j].0 != alias
    decreases |NetworkTable| - from
  {
    if from == |NetworkTable| then None
    else if NetworkTable[from].0 == alias then Some(from)
    else KeyIndexFrom(alias, from + 1)
  }

  /** `NETWORK_TO_CHAIN_ID.get(alias)`: exact, case-sensitive lookup. */
  function ChainIdOf(alias: string): (r: Option<string>)
    ensures r.None? <==> !IsNetwork(alias)
    ensures r.Some? ==> exists j :: 0 <= j < |NetworkTable| && NetworkTable[j] == (alias, r.value)
  {
    match KeyIndexFrom(alias, 0)
    case None => None
    case Some(j) => Some(NetworkTable[j].1)
  }

  /** Looking up any key yields the chain id written next to it. */
  lemma ChainIdOfEntry(j: nat)
    requires j < |NetworkTable|
    ensures ChainIdOf(NetworkTable[j].0) == Some(NetworkTable[j].1)
  {
    KeysDistinct();
  }

  /** Index of the first entry at or after `from` whose chain id is `chainId` (the `for ... break` scan). */
  function FirstWithId(chainId: string, from: nat): (r: Option<nat>)
    requires from <= |NetworkTable|
    ensures r.Some? ==> from <= r.value < |NetworkTable| && NetworkTable[r.value].1 == chainId
    ensures r.Some? ==> forall j :: from <= j < r.value ==> NetworkTable[j].1 != chainId
    ensures r.None? ==> forall j :: from <= j < |NetworkTable| ==> NetworkTable[j].1 != chainId
    decreases |NetworkTable| - from
  {
    if from == |NetworkTable| then None
    else if NetworkTable[from].1 == chainId then Some(from)
    else FirstWithId(chainId, from + 1)
  }

  /** The display name of a chain id used in the actions' log lines. */
  function DisplayName(chainId: string): string
  {
    match FirstWithId(chainId, 0)
    case Some(j) => Capitalize(NetworkTable[j].0)
    case None => "Chain ID " + chainId
  }

  /** `j` is the first table entry carrying `chainId`. */
  predicate FirstAliasOf(chainId: string, j: nat)
  {
    j < |NetworkTable| && NetworkTable[j].1 == chainId
    && forall i :: 0 <= i < j ==> NetworkTable[i].1 != chainId
  }

  /** The display name is the capitalised first alias carrying the chain id, in definition order. */
  lemma DisplayNameIsFirstAlias(chainId: string, j: nat)
    requires FirstAliasOf(chainId, j)
    ensures DisplayName(chainId) == Capitalize(NetworkTable[j].0)
  {
    var f := FirstWithId(chainId, 0);
    assert f.Some?;
    assert !(f.value < j);
    assert !(j < f.value);
  }

  /** A chain id no alias carries is displayed as `Chain ID {id}`. */
  lemma DisplayNameUnknown(chainId: string)
    requires forall j :: 0 <= j < |NetworkTable| ==> NetworkTable[j].1 != chainId
    ensures DisplayName(chainId) == "Chain ID " + chainId
  {
  }

  /** The reverse lookup prefers the first alias in definition order: "1" is Ethereum, not Eth or
      Mainnet. */
  lemma DisplayNameEthereum()
    ensures DisplayName("1") == "Ethereum"
  {
    DisplayNameIsFirstAlias("1", 0);
    assert NetworkTable[0].0 == "ethereum";
    CapitalizeWord("ethereum", "Ethereum");
  }

  /** "137" is Polygon, not Matic. */
  lemma DisplayNamePolygon()
    ensures DisplayName("137") == "Polygon"
  {
    DisplayNameIsFirstAlias("137", 5);
    assert NetworkTable[5].0 == "polygon";
    CapitalizeWord("polygon", "Polygon");
  }

  /** "43114" is Avalanche, not Avax. */
  lemma DisplayNameAvalanche()
    ensures DisplayName("43114") == "Avalanche"
  {
    DisplayNameIsFirstAlias("43114", 7);
    assert NetworkTable[7].0 == "avalanche";
    CapitalizeWord("avalanche", "Avalanche");
  }

  lemma DisplayNameUnlisted()
    ensures DisplayName("999") == "Chain ID 999"
  {
    DisplayNameUnknown("999");
  }

  /** Outcome of the network/chain-id arguments of an action. */
  datatype Resolution =
    | UnknownNetwork(network: string)          // the action logs and returns False
    | Resolved(chainId: string, display: string)

  /**
   * The resolution prologue of `get_gas_price` and `get_transaction_history`: an explicit chain id
   * wins; otherwise a network alias is lower-cased and looked up; with neither, Ethereum ("1").
   */
  function Resolve(network: Option<string>, chainId: Option<string>): (r: Resolution)
    ensures Truthy(chainId) ==> r == Resolved(chainId.value, DisplayName(chainId.value))
    ensures !Truthy(chainId) && !Truthy(network) ==> r == Resolved("1", "Ethereum")
    ensures !Truthy(chainId) && Truthy(network) ==>
              (r.UnknownNetwork? <==> !IsNetwork(Lower(network.value)))
    ensures r.UnknownNetwork? ==> r.network == Lower(network.value)
    ensures !Truthy(chainId) && r.Resolved? ==>
              exists j :: 0 <= j < |NetworkTable| && NetworkTable[j].1 == r.chainId
    ensures !Truthy(chainId) && Truthy(network) && r.Resolved? ==> ChainIdOf(Lower(network.value)) == Some(r.chainId)
    ensures r.Resolved? ==> r.display == DisplayName(r.chainId) && |r.chainId| > 0
  {
    if Truthy(network) && !Truthy(chainId) then
      var alias := Lower(network.value);
      match ChainIdOf(alias)
      case None => UnknownNetwork(alias)
      case Some(c) =>
        assert |c| > 0;
        Resolved(c, DisplayName(c))
    else if !Truthy(chainId) then
      DisplayNameEthereum();
      assert NetworkTable[0].1 == "1";
      Resolved("1", "Ethereum")
    else
      Resolved(chainId.value, DisplayName(chainId.value))
  }

  /** Every alias, in any letter case, resolves to its chain id and to the display name of the first
      alias sharing that chain id. */
  lemma AliasRoundTrip(j: nat, spelled: string)
    requires j < |NetworkTable|
    requires Lower(spelled) == NetworkTable[j].0
    ensures Resolve(Some(spelled), None) == Resolved(NetworkTable[j].1, DisplayName(NetworkTable[j].1))
  {
    ChainIdOfEntry(j);
  }
}

=== FILE: chat.dfy ===
/**
 * One turn of the `ollama_chat` loop of `src/actions/ollama_actions.py`, as pure functions: exit test,
 * user append, gas-intent tool call, gas-field formatting, template, history augmentation, response
 * verification/correction and assistant append.
 */
module Chat {
  import opened Common
  import opened Text
  import opened Chains
  import opened Detect
  import opened ApiTools

  datatype Role = System | User | Assistant

  datatype Message = Message(role: Role, content: string)

  type History = seq<Message>

  /** A formatted gas field: its payload key and its rendered value (`formatted_values` item). */
  type Field = (string, string)

  /** The gas fields in the fixed order the formatter visits them, with the caption the gas-info block
      hard-codes for each. */
  const GasFields: seq<(string, string)> := [
    ("low", "Low"), ("standard", "Standard"), ("fast", "Fast"), ("instant", "Instant"), ("baseFee", "Base Fee")
  ]

  /** Position of a key in `GasFields`; 5 for any other key. */
  function Rank(key: string): nat
  {
    if key == "low" then 0
    else if key == "standard" then 1
    else if key == "fast" then 2
    else if key == "instant" then 3
    else if key == "baseFee" then 4
    else 5
  }

  lemma RankOfGasField(k: nat)
    requires k < |GasFields|
    ensures Rank(GasFields[k].0) == k
  {
  }

  const GasInfoHeader := "EXACT CURRENT GAS PRICES (use these EXACT values in your response):\n"

  /** `', '.join(f"{key}: {value}" for key, value in d.items())`. */
  function JoinEntries(entries: seq<(string, string)>): string
  {
    if |entries| == 0 then ""
    else if |entries| == 1 then entries[0].0 + ": " + entries[0].1
    else entries[0].0 + ": " + entries[0].1 + ", " + JoinEntries(entries[1..])
  }

  /** The rendering of one field: the four speeds show a nested dict as `{k: v, ...}`, baseFee always
      uses `str(value)`. */
  function Render(key: string, v: Value): string
  {
    if key == "baseFee" then
      match v
      case Scalar(t) => t
      case Nested(_, repr) => repr
    else
      match v
      case Scalar(t) => t
      case Nested(entries, _) => "{" + JoinEntries(entries) + "}"
  }

  /** A nested speed renders its sub-fields in order; baseFee keeps the dict's own `str`. */
  lemma RenderExamples()
    ensures Render("low", Nested([("max", "12"), ("tip", "1")], "r")) == "{max: 12, tip: 1}"
    ensures Render("baseFee", Nested([("a", "1")], "{'a': '1'}")) == "{'a': '1'}"
    ensures Render("standard", Scalar("40")) == "40"
  {
    var entries := [("max", "12"), ("tip", "1")];
    assert JoinEntries(entries[1..]) == "tip: 1";
    assert JoinEntries(entries) == "max: 12" + ", " + "tip: 1";
  }

  /** `f"- {caption}: {value} Gwei\n"`. */
  function InfoLine(caption: string, value: string): string
  {
    "- " + caption + ": " + value + " Gwei\n"
  }

  /** The formatter from position `j` of `GasFields` on: the fields present in `p`, and the gas-info
      lines for them. */
  function FormatFrom(p: Payload, j: nat): (r: (seq<Field>, string))
    requires j <= |GasFields|
    ensures forall i :: 0 <= i < |r.0| ==> r.0[i].0 in p && r.0[i].1 == Render(r.0[i].0, p[r.0[i].0])
    ensures forall i :: 0 <= i < |r.0| ==> j <= Rank(r.0[i].0) < |GasFields|
    ensures forall i, i' :: 0 <= i < i' < |r.0| ==> Rank(r.0[i].0) < Rank(r.0[i'].0)
    decreases |GasFields| - j
  {
    if j == |GasFields| then ([], "")
    else
      var rest := FormatFrom(p, j + 1);
      var (key, caption) := GasFields[j];
      RankOfGasField(j);
      if key in p then
        var v := Render(key, p[key]);
        var fields := [(key, v)] + rest.0;
        assert forall i :: 0 < i < |fields| ==> fields[i] == rest.0[i - 1];
        (fields, InfoLine(caption, v) + rest.1)
      else
        rest
  }

  /** Every gas field from position `j` on that the payload has is formatted (the converse is the
      formatter's first postcondition). */
  lemma {:induction false} FormatFromShows(p: Payload, j: nat, k: nat)
    requires j <= k < |GasFields| && GasFields[k].0 in p
    ensures exists i :: 0 <= i < |FormatFrom(p, j).0| && FormatFrom(p, j).0[i].0 == GasFields[k].0
    decreases |GasFields| - j
  {
    var r := FormatFrom(p, j).0;
    var rest := FormatFrom(p, j + 1).0;
    var key := GasFields[j].0;
    if k == j {
      assert r == [(key, Render(key, p[key]))] + rest;
      assert r[0].0 == key;
    } else {
      FormatFromShows(p, j + 1, k);
      var i :| 0 <= i < |rest| && rest[i].0 == GasFields[k].0;
      if key in p {
        assert r == [(key, Render(key, p[key]))] + rest;
        assert r[i + 1] == rest[i];
      } else {
        assert r == rest;
      }
    }
  }

  /** The formatting block of the loop: (`formatted_values`, `gas_info`). */
  function FormatGasFields(p: Payload): (r: (seq<Field>, string))
    ensures GasInfoHeader <= r.1
    ensures forall i :: 0 <= i < |r.0| ==> r.0[i].0 in p && r.0[i].1 == Render(r.0[i].0, p[r.0[i].0])
    ensures forall i :: 0 <= i < |r.0| ==> Rank(r.0[i].0) < |GasFields|
    ensures forall i, i' :: 0 <= i < i' < |r.0| ==> Rank(r.0[i].0) < Rank(r.0[i'].0)
    ensures forall k :: 0 <= k < |GasFields| ==>
              (GasFields[k].0 in p <==> exists i :: 0 <= i < |r.0| && r.0[i].0 == GasFields[k].0)
  {
    forall k | 0 <= k < |GasFields| && GasFields[k].0 in p
      ensures exists i :: 0 <= i < |FormatFrom(p, 0).0| && FormatFrom(p, 0).0[i].0 == GasFields[k].0
    {
      FormatFromShows(p, 0, k);
    }
    var (fields, lines) := FormatFrom(p, 0);
    (fields, GasInfoHeader + lines)
  }

  /** The template's caption for a key: "Base Fee" for baseFee, `key.capitalize()` otherwise. */
  function Label(key: string): string
  {
    if key == "baseFee" then "Base Fee" else Capitalize(key)
  }

  function TemplateLines(fields: seq<Field>): string
  {
    if |fields| == 0 then "" else InfoLine(Label(fields[0].0), fields[0].1) + TemplateLines(fields[1..])
  }

  /** The template's first line. The fixed text is written in pieces so that the proofs about which
      letters it contains (`EmptyTemplateLacksMarkers`) can go piece by piece. */
  function TemplateHeader(network: string): string
  {
    "Here are the current " + "gas prices for " + Capitalize(network) + ":\n"
  }

  /** Each field's template line occurs in the template lines. */
  lemma {:induction false} TemplateLinesContain(fields: seq<Field>, i: nat)
    requires i < |fields|
    ensures Contains(TemplateLines(fields), InfoLine(Label(fields[i].0), fields[i].1))
  {
    if i == 0 {
      ContainsPrefix(TemplateLines(fields), InfoLine(Label(fields[0].0), fields[0].1));
    } else {
      TemplateLinesContain(fields[1..], i - 1);
      ContainsInRight(InfoLine(Label(fields[0].0), fields[0].1), TemplateLines(fields[1..]),
                      InfoLine(Label(fields[i].0), fields[i].1));
    }
  }

  /** `template_response`: a header naming the network, then one line per formatted field, in order. */
  function Template(network: string, fields: seq<Field>): (r: string)
    ensures TemplateHeader(network) <= r
    ensures forall i :: 0 <= i < |fields| ==> Contains(r, InfoLine(Label(fields[i].0), fields[i].1))
  {
    TemplateContainsLines(network, fields);
    TemplateHeader(network) + TemplateLines(fields)
  }

  lemma TemplateContainsLines(network: string, fields: seq<Field>)
    ensures forall i :: 0 <= i < |fields| ==>
              Contains(TemplateHeader(network) + TemplateLines(fields), InfoLine(Label(fields[i].0), fields[i].1))
  {
    forall i | 0 <= i < |fields|
      ensures Contains(TemplateHeader(network) + TemplateLines(fields), InfoLine(Label(fields[i].0), fields[i].1))
    {
      TemplateLinesContain(fields, i);
      ContainsInRight(TemplateHeader(network), TemplateLines(fields), InfoLine(Label(fields[i].0), fields[i].1));
    }
  }

  /** The labels the gas-info block hard-codes are the template's computed labels. */
  lemma LabelsAgree(k: nat)
    requires k < |GasFields|
    ensures Label(GasFields[k].0) == GasFields[k].1
  {
    if k == 0 {
      CapitalizeWord("low", "Low");
    } else if k == 1 {
      CapitalizeWord("standard", "Standard");
    } else if k == 2 {
      CapitalizeWord("fast", "Fast");
    } else if k == 3 {
      CapitalizeWord("instant", "Instant");
    }
  }

  /** The gas-info block and the template list the very same field lines. */
  lemma {:induction false} FormatLinesAgree(p: Payload, j: nat)
    requires j <= |GasFields|
    ensures FormatFrom(p, j).1 == TemplateLines(FormatFrom(p, j).0)
    decreases |GasFields| - j
  {
    if j < |GasFields| {
      FormatLinesAgree(p, j + 1);
      LabelsAgree(j);
    }
  }

  lemma GasInfoAgreesWithTemplate(p: Payload, network: string)
    ensures FormatGasFields(p).1 == GasInfoHeader + TemplateLines(FormatGasFields(p).0)
    ensures Template(network, FormatGasFields(p).0) == TemplateHeader(network) + TemplateLines(FormatGasFields(p).0)
  {
    FormatLinesAgree(p, 0);
  }

  /** A payload carrying only a standard price formats to that one field. */
  lemma StandardOnlyFormat()
    ensures FormatGasFields(map["standard" := Scalar("40")]).0 == [("standard", "40")]
  {
    var p := map["standard" := Scalar("40")];
    var f := FormatGasFields(p).0;
    assert GasFields[1].0 in p;
    assert f[0].0 in p;
  }

  /** The template for a standard price of 40 carries the line `InfoLine("Standard", "40")`, that is
      "- Standard: 40 Gwei", whatever the network. */
  lemma StandardLineInTemplate(network: string)
    ensures Contains(Template(network, [("standard", "40")]), InfoLine("Standard", "40"))
  {
    CapitalizeWord("standard", "Standard");
    assert Label("standard") == "Standard";
  }

  const MustUseNotice := "You MUST use these EXACT values in your response. DO NOT convert, calculate, or modify these values in any way."

  /** `modified_user_input`. */
  function ModifiedInput(userInput: string, gasInfo: string): string
  {
    userInput + "\n\n" + gasInfo + "\n\n" + MustUseNotice
  }

  const InstructionHead :=
    "I have fetched the real data above. Your response MUST include these EXACT gas price values.\n"
    + "DO NOT calculate, convert, or modify these values in any way.\n"
    + "DO NOT make up different values.\n"
    + "If you're unsure how to format the response, use this template:\n"

  /** The system message carrying the template. */
  function Instruction(network: string, template: string): (r: string)
    ensures Contains(r, template)
  {
    var head := "CRITICAL INSTRUCTION: The user has asked about gas prices on " + Capitalize(network) + ". \n"
                + InstructionHead;
    ContainsSelf(template);
    ContainsInLeft(template, "\n", template);
    ContainsInRight(head, template + "\n", template);
    head + (template + "\n")
  }

  /** The augmentation: rewrite the last message's content, then append one system message. */
  function Augment(history: History, userInput: string, gasInfo: string, template: string, network: string)
    : (r: History)
    requires |history| > 0
    ensures |r| == |history| + 1
    ensures r[..|history| - 1] == history[..|history| - 1]
    ensures r[|history| - 1].role == history[|history| - 1].role
    ensures userInput + "\n\n" + gasInfo <= r[|history| - 1].content
    ensures r[|history|].role == System && Contains(r[|history|].content, template)
  {
    var n := |history| - 1;
    var modified := ModifiedInput(userInput, gasInfo);
    assert modified == (userInput + "\n\n" + gasInfo) + ("\n\n" + MustUseNotice);
    history[..n] + [Message(history[n].role, modified), Message(System, Instruction(network, template))]
  }

  /** The text put between a reply and the appended template; written in pieces for the same reason as
      the template header (`CorrectionLacksMarkers`). */
  const CorrectionPrefix := "\n\nActually, " + "let me correct " + "myself with " + "the exact data:\n\n"

  /** The presence check: the reply names baseFee, or any formatted key in its raw or capitalised
      form. Values are not looked at. */
  predicate MentionsGasData(response: string, formatted: Option<seq<Field>>)
  {
    || Contains(response, "baseFee")
    || Contains(response, "Base Fee")
    || (formatted.Some? &&
        exists i :: 0 <= i < |formatted.value| &&
          (Contains(response, formatted.value[i].0) || Contains(response, Capitalize(formatted.value[i].0))))
  }

  /** The verifier: leave a reply that mentions the data alone, otherwise append the template. */
  function Verify(response: string, formatted: Option<seq<Field>>, template: Option<string>): (r: string)
    ensures response <= r
    ensures MentionsGasData(response, formatted) || template.None? ==> r == response
    ensures !MentionsGasData(response, formatted) && template.Some? ==>
              r == response + CorrectionPrefix + template.value
  {
    if !MentionsGasData(response, formatted) && template.Some? then
      response + CorrectionPrefix + template.value
    else response
  }

  lemma InfoLineContainsCaption(caption: string, value: string)
    ensures Contains(InfoLine(caption, value), caption)
  {
    var line := InfoLine(caption, value);
    assert line == "- " + (caption + (": " + value + " Gwei\n"));
    assert line[2..2 + |caption|] == caption;
    assert OccursAt(line, caption, 2);
  }

  /** A template built from at least one field mentions that field's label. */
  lemma TemplateMentionsField(network: string, fields: seq<Field>)
    requires |fields| > 0
    ensures MentionsGasData(Template(network, fields), Some(fields))
  {
    var t := Template(network, fields);
    var line := InfoLine(Label(fields[0].0), fields[0].1);
    InfoLineContainsCaption(Label(fields[0].0), fields[0].1);
    ContainsTransitive(t, line, Label(fields[0].0));
  }

  /** When at least one field was formatted, the verified reply always passes the presence check. */
  lemma VerifiedReplyMentionsData(response: string, network: string, fields: seq<Field>)
    requires |fields| > 0
    ensures MentionsGasData(Verify(response, Some(fields), Some(Template(network, fields))), Some(fields))
  {
    var t := Template(network, fields);
    if !MentionsGasData(response, Some(fields)) {
      TemplateMentionsField(network, fields);
      var r := response + CorrectionPrefix + t;
      if Contains(t, "baseFee") {
        ContainsInRight(response + CorrectionPrefix, t, "baseFee");
      } else if Contains(t, "Base Fee") {
        ContainsInRight(response + CorrectionPrefix, t, "Base Fee");
      } else {
        var i :| 0 <= i < |fields| && (Contains(t, fields[i].0) || Contains(t, Capitalize(fields[i].0)));
        if Contains(t, fields[i].0) {
          ContainsInRight(response + CorrectionPrefix, t, fields[i].0);
        } else {
          ContainsInRight(response + CorrectionPrefix, t, Capitalize(fields[i].0));
        }
      }
    }
  }

  /** Hence verifying twice is the same as verifying once when some field was formatted. */
  lemma VerifyIdempotent(response: string, network: string, fields: seq<Field>)
    requires |fields| > 0
    ensures var t := Some(Template(network, fields));
            Verify(Verify(response, Some(fields), t), Some(fields), t) == Verify(response, Some(fields), t)
  {
    VerifiedReplyMentionsData(response, network, fields);
  }

  lemma CorrectionLacksMarkers()
    ensures 'b' !in CorrectionPrefix && 'F' !in CorrectionPrefix
  {
    assert 'b' !in "\n\nActually, " && 'F' !in "\n\nActually, ";
    assert 'b' !in "let me correct " && 'F' !in "let me correct ";
    assert 'b' !in "myself with " && 'F' !in "myself with ";
    assert 'b' !in "the exact data:\n\n" && 'F' !in "the exact data:\n\n";
  }

  lemma EmptyTemplateLacksMarkers()
    ensures 'b' !in Template("ethereum", []) && 'F' !in Template("ethereum", [])
  {
    CapitalizeWord("ethereum", "Ethereum");
    assert Template("ethereum", []) == "Here are the current " + "gas prices for " + "Ethereum" + ":\n";
    assert 'b' !in "Here are the current " && 'F' !in "Here are the current ";
    assert 'b' !in "gas prices for " && 'F' !in "gas prices for ";
  }

  /** With no formatted field the template names nothing the check looks for, so a second
      verification would append the correction again. */
  lemma VerifyRepeatsWithoutFields()
    ensures var t := Some(Template("ethereum", []));
            var once := Verify("ok", Some([]), t);
            once == "ok" + CorrectionPrefix + t.value
            && Verify(once, Some([]), t) == once + CorrectionPrefix + t.value
  {
    var t := Template("ethereum", []);
    ShortNotContains("ok", "baseFee");
    ShortNotContains("ok", "Base Fee");
    var once := "ok" + CorrectionPrefix + t;
    CorrectionLacksMarkers();
    EmptyTemplateLacksMarkers();
    assert 'b' !in once && 'F' !in once;
    MissingCharNotContains(once, "baseFee", 0);
    MissingCharNotContains(once, "Base Fee", 5);
  }

  /** The check looks at field names only: a reply quoting a wrong price under the right name passes. */
  lemma VerifierIgnoresValues(network: string)
    ensures var fields := [("standard", "40")];
            Verify("Standard: 999 Gwei", Some(fields), Some(Template(network, fields))) == "Standard: 999 Gwei"
  {
    CapitalizeWord("standard", "Standard");
    assert OccursAt("Standard: 999 Gwei", "Standard", 0);
  }

  /** The collaborators one turn talks to: whether an "api_tools" connection is registered, the
      api-tools connection, and the chat model (`None` or `""` when it gives no usable reply). */
  datatype Env = Env(apiTools: bool, api: Call -> Reply, chat: History -> Option<string>)

  /** The loop's state between turns: the history, and the `formatted_values` / `template_response`
      locals, which keep the value of the last turn that assigned them. */
  datatype LoopState = LoopState(history: History, formatted: Option<seq<Field>>, template: Option<string>)

  datatype Turn = Ended | Continued(state: LoopState)

  /** The history starts with the single combined system prompt and no gas data. */
  function Start(systemPrompt: string): (s: LoopState)
    ensures |s.history| == 1 && s.history[0].role == System && s.history[0].content == systemPrompt
    ensures s.formatted.None? && s.template.None?
  {
    LoopState([Message(System, systemPrompt)], None, None)
  }

  /** `user_input.lower() in ["exit", "quit"]`. */
  predicate IsExit(input: string)
  {
    Lower(input) == "exit" || Lower(input) == "quit"
  }

  /** Exactly the two words end the session, in any letter case and with nothing around them. */
  lemma ExitWords()
    ensures IsExit("exit") && IsExit("QUIT") && IsExit("Exit")
    ensures !IsExit("exit now") && !IsExit(" quit") && !IsExit("")
  {
    assert Lower("QUIT") == "quit";
    assert Lower("Exit") == "exit";
    assert |Lower("exit now")| == 8;
    assert Lower(" quit")[0] == ' ';
  }

  /** The tool branch runs when a gas intent is detected and an "api_tools" connection exists. */
  predicate Gated(input: string, env: Env)
  {
    Truthy(DetectGas(input)) && env.apiTools
  }

  /** The tool branch fetched a payload, so this turn formats it and augments the history. */
  predicate Grounded(input: string, env: Env)
  {
    Gated(input, env) && GetGasPrice(DetectGas(input), None, env.api).result.Fetched?
  }

  /** The data a grounded turn computes from the payload the connection answered for the detected
      network's chain: the formatted fields, the gas-info block and the template, the last two sharing
      their field lines. */
  function Grounding(input: string, env: Env): (g: (seq<Field>, string, string))
    requires Grounded(input, env)
    ensures var network := DetectGas(input).value;
            var reply := env.api(GasPriceCall(ChainIdOf(network).value));
            && reply.Answer?
            && (forall i :: 0 <= i < |g.0| ==>
                  g.0[i].0 in reply.payload && g.0[i].1 == Render(g.0[i].0, reply.payload[g.0[i].0]))
            && (forall k :: 0 <= k < |GasFields| ==>
                  (GasFields[k].0 in reply.payload <==> exists i :: 0 <= i < |g.0| && g.0[i].0 == GasFields[k].0))
    ensures g.1 == GasInfoHeader + TemplateLines(g.0)
    ensures g.2 == TemplateHeader(DetectGas(input).value) + g.1[|GasInfoHeader|..]
  {
    var p := GetGasPrice(DetectGas(input), None, env.api).result.payload;
    DetectedGasNetworkResolves(input, env.api);
    GasInfoAgreesWithTemplate(p, DetectGas(input).value);
    var (fields, gasInfo) := FormatGasFields(p);
    (fields, gasInfo, Template(DetectGas(input).value, fields))
  }

  /** The part of a turn before the chat call: the history sent to the model and the formatted fields
      and template the verifier will see, `carried` being what it falls back on when this turn does
      not assign them. */
  function Prepare(history: History, carried: (Option<seq<Field>>, Option<string>), input: string, env: Env)
    : (r: (History, Option<seq<Field>>, Option<string>))
  {
    var asked := history + [Message(User, input)];
    if Grounded(input, env) then
      var (fields, gasInfo, tpl) := Grounding(input, env);
      (Augment(asked, input, gasInfo, tpl, DetectGas(input).value), Some(fields), Some(tpl))
    else (asked, carried.0, carried.1)
  }

  /** The part of a turn after the chat call: the verified reply, if any, is appended. */
  function Respond(prepared: (History, Option<seq<Field>>, Option<string>), input: string, env: Env): (s: LoopState)
  {
    var (sent, formatted, template) := prepared;
    var reply := env.chat(sent);
    if Truthy(reply) then
      var response := if Gated(input, env) then Verify(reply.value, formatted, template) else reply.value;
      LoopState(sent + [Message(Assistant, response)], formatted, template)
    else LoopState(sent, formatted, template)
  }

  /** One pass of the loop body after the exit test. */
  function Advance(history: History, carried: (Option<seq<Field>>, Option<string>), input: string, env: Env)
    : (s: LoopState)
  {
    Respond(Prepare(history, carried, input, env), input, env)
  }

  /** The length of the history the chat model is shown in a turn. */
  function SentLength(s: LoopState, input: string, env: Env): nat
  {
    |s.history| + if Grounded(input, env) then 2 else 1
  }

  /** One iteration of `while True` in `ollama_chat`, as written: the verifier reads whatever
      `formatted_values` and `template_response` last held, possibly from an earlier turn. */
  function Step(s: LoopState, input: string, env: Env): (t: Turn)
    ensures t.Ended? <==> IsExit(input)
    ensures t.Continued? ==> StepShape(s, input, env, t.state)
    ensures t.Continued? && !Grounded(input, env) ==>
              t.state.formatted == s.formatted && t.state.template == s.template
  {
    if IsExit(input) then Ended
    else
      AdvanceShape(s.history, (s.formatted, s.template), input, env);
      Continued(Advance(s.history, (s.formatted, s.template), input, env))
  }

  /** What every non-exit turn does to the history, whichever locals the verifier sees:
      - the previous history is kept as a prefix, followed by the user's message;
      - a grounded turn rewrites that message to carry the gas-info block and appends the template
        as a system message, and records this turn's fields and template;
      - the chat model is shown exactly the history up to there;
      - an assistant message follows exactly when the model's reply is truthy, and it is the reply
        itself unless the tool branch ran. */
  predicate StepShape(s: LoopState, input: string, env: Env, r: LoopState)
  {
    AskedShape(s, input, env, r) && RepliedShape(s, input, env, r)
  }

  /** The history up to the chat call, and the recorded fields and template of a grounded turn. */
  predicate AskedShape(s: LoopState, input: string, env: Env, r: LoopState)
  {
    var m := SentLength(s, input, env);
    m <= |r.history| && Asked(s.history, input, env, r.history[..m], r.formatted, r.template)
  }

  /** `sent` is `history` followed by the user's message; on a grounded turn that message carries the
      gas-info block and is followed by a system message with the template, and the fields and template
      are the turn's own. */
  predicate Asked(history: History, input: string, env: Env, sent: History,
                  formatted: Option<seq<Field>>, template: Option<string>)
  {
    var n := |history|;
    && |sent| == n + (if Grounded(input, env) then 2 else 1)
    && sent[..n] == history
    && sent[n].role == User
    && input <= sent[n].content
    && (!Grounded(input, env) ==> sent[n].content == input)
    && (Grounded(input, env) ==>
          var (fields, gasInfo, tpl) := Grounding(input, env);
          && input + "\n\n" + gasInfo <= sent[n].content
          && sent[n + 1].role == System && Contains(sent[n + 1].content, tpl)
          && formatted == Some(fields) && template == Some(tpl))
  }

  /** The reply of the chat model to the history it was shown, appended when truthy. */
  predicate RepliedShape(s: LoopState, input: string, env: Env, r: LoopState)
  {
    var m := SentLength(s, input, env);
    m <= |r.history| && Replied(r.history[..m], input, env, r.history)
  }

  /** `h` is `sent` followed by an assistant message exactly when the model's reply to `sent` is
      truthy; that message starts with the reply, and is the reply itself unless the tool branch ran. */
  predicate Replied(sent: History, input: string, env: Env, h: History)
  {
    var m := |sent|;
    var reply := env.chat(sent);
    && m <= |h| && h[..m] == sent
    && |h| == m + (if Truthy(reply) then 1 else 0)
    && (Truthy(reply) ==> h[m].role == Assistant && reply.value <= h[m].content)
    && (Truthy(reply) && !Gated(input, env) ==> h[m].content == reply.value)
  }

  lemma PrepareShape(history: History, carried: (Option<seq<Field>>, Option<string>), input: string, env: Env)
    ensures var (sent, formatted, template) := Prepare(history, carried, input, env);
            && Asked(history, input, env, sent, formatted, template)
            && (!Grounded(input, env) ==> formatted == carried.0 && template == carried.1)
  {
    var n := |history|;
    var asked := history + [Message(User, input)];
    assert asked[..n] == history;
    if Grounded(input, env) {
      var (fields, gasInfo, tpl) := Grounding(input, env);
      var sent := Augment(asked, input, gasInfo, tpl, DetectGas(input).value);
      assert sent[..n] == asked[..n];
      assert input <= input + "\n\n" + gasInfo;
    }
  }

  lemma RespondShape(prepared: (History, Option<seq<Field>>, Option<string>), input: string, env: Env)
    ensures var r := Respond(prepared, input, env);
            && Replied(prepared.0, input, env, r.history)
            && r.formatted == prepared.1 && r.template == prepared.2
    ensures var r := Respond(prepared, input, env);
            var reply := env.chat(prepared.0);
            Truthy(reply) && Gated(input, env) ==>
              r.history[|prepared.0|].content == Verify(reply.value, prepared.1, prepared.2)
  {
  }

  lemma AdvanceShape(history: History, carried: (Option<seq<Field>>, Option<string>), input: string, env: Env)
    ensures StepShape(LoopState(history, carried.0, carried.1), input, env, Advance(history, carried, input, env))
    ensures !Grounded(input, env) ==>
              Advance(history, carried, input, env).formatted == carried.0
              && Advance(history, carried, input, env).template == carried.1
  {
    AdvanceAsked(history, carried, input, env);
    AdvanceReplied(history, carried, input, env);
  }

  lemma AdvanceAsked(history: History, carried: (Option<seq<Field>>, Option<string>), input: string, env: Env)
    ensures AskedShape(LoopState(history, carried.0, carried.1), input, env, Advance(history, carried, input, env))
    ensures !Grounded(input, env) ==>
              Advance(history, carried, input, env).formatted == carried.0
              && Advance(history, carried, input, env).template == carried.1
  {
    var prepared := Prepare(history, carried, input, env);
    PrepareShape(history, carried, input, env);
    RespondShape(prepared, input, env);
    assert |prepared.0| == SentLength(LoopState(history, carried.0, carried.1), input, env);
  }

  lemma AdvanceReplied(history: History, carried: (Option<seq<Field>>, Option<string>), input: string, env: Env)
    ensures RepliedShape(LoopState(history, carried.0, carried.1), input, env, Advance(history, carried, input, env))
  {
    var prepared := Prepare(history, carried, input, env);
    PrepareShape(history, carried, input, env);
    RespondShape(prepared, input, env);
    assert |prepared.0| == SentLength(LoopState(history, carried.0, carried.1), input, env);
  }

  /** On a gated turn of the loop as written, a truthy reply is stored as the verifier leaves it,
      checked against the fields and template the turn ends up holding. */
  lemma GatedStepVerifies(s: LoopState, input: string, env: Env)
    requires !IsExit(input) && Gated(input, env)
    ensures var t := Step(s, input, env).state;
            var m := SentLength(s, input, env);
            && m <= |t.history|
            && (Truthy(env.chat(t.history[..m])) ==>
                  |t.history| == m + 1
                  && t.history[m].content == Verify(env.chat(t.history[..m]).value, t.formatted, t.template))
  {
    var prepared := Prepare(s.history, (s.formatted, s.template), input, env);
    PrepareShape(s.history, (s.formatted, s.template), input, env);
    RespondShape(prepared, input, env);
    assert |prepared.0| == SentLength(s, input, env);
    assert Step(s, input, env).state == Respond(prepared, input, env);
  }

  /** On a turn that fetched data, a truthy reply is stored as verified against this turn's fields and
      template. */
  lemma GroundedStepStoresVerified(s: LoopState, input: string, env: Env)
    requires !IsExit(input) && Grounded(input, env)
    ensures var h := Step(s, input, env).state.history;
            var m := SentLength(s, input, env);
            var g := Grounding(input, env);
            && m <= |h|
            && (Truthy(env.chat(h[..m])) ==>
                  |h| == m + 1 && h[m].content == Verify(env.chat(h[..m]).value, Some(g.0), Some(g.2)))
  {
    GatedStepVerifies(s, input, env);
    AdvanceShape(s.history, (s.formatted, s.template), input, env);
  }

  /** The closed loop: on a turn that fetched and formatted at least one field, the stored reply always
      names a formatted field. */
  lemma GroundedStepMentions(s: LoopState, input: string, env: Env)
    requires !IsExit(input) && Grounded(input, env) && |Grounding(input, env).0| > 0
    ensures var h := Step(s, input, env).state.history;
            var m := SentLength(s, input, env);
            && m <= |h|
            && (|h| > m ==> MentionsGasData(h[m].content, Some(Grounding(input, env).0)))
  {
    GroundedStepStoresVerified(s, input, env);
    var h := Step(s, input, env).state.history;
    var m := SentLength(s, input, env);
    var g := Grounding(input, env);
    AdvanceReplied(s.history, (s.formatted, s.template), input, env);
    if |h| > m {
      assert g.2 == Template(DetectGas(input).value, g.0);
      VerifiedReplyMentionsData(env.chat(h[..m]).value, DetectGas(input).value, g.0);
    }
  }

  /** The loop with `formatted_values` and `template_response` scoped to the turn: a turn that does not
      fetch data verifies against nothing. */
  function StepScoped(s: LoopState, input: string, env: Env): (t: Turn)
    ensures t.Ended? <==> IsExit(input)
    ensures t.Continued? ==> StepShape(s, input, env, t.state)
    ensures t.Continued? && !Grounded(input, env) ==> t.state.formatted.None? && t.state.template.None?
  {
    if IsExit(input) then Ended
    else
      AdvanceShape(s.history, (None, None), input, env);
      Continued(Advance(s.history, (None, None), input, env))
  }

  /** On a turn that fetches data the two loops do the same thing. */
  lemma ScopedAgreesWhenGrounded(s: LoopState, input: string, env: Env)
    requires Grounded(input, env)
    ensures StepScoped(s, input, env) == Step(s, input, env)
  {
  }

  /** With turn-scoped locals, a reply is only ever changed on a turn that fetched data, and then only
      by appending the correction and that turn's own template. */
  lemma ScopedCorrectionUsesCurrentTemplate(s: LoopState, input: string, env: Env)
    requires !IsExit(input)
    ensures var h := StepScoped(s, input, env).state.history;
            var m := SentLength(s, input, env);
            |h| > m ==>
              || h[m].content == env.chat(h[..m]).value
              || (Grounded(input, env) && h[m].content == env.chat(h[..m]).value + CorrectionPrefix + Grounding(input, env).2)
  {
    var prepared := Prepare(s.history, (None, None), input, env);
    PrepareShape(s.history, (None, None), input, env);
    RespondShape(prepared, input, env);
    var h := Respond(prepared, input, env).history;
    assert StepScoped(s, input, env).state.history == h;
    var m := |prepared.0|;
    assert m == SentLength(s, input, env);
    assert h[..m] == prepared.0;
    var reply := env.chat(prepared.0);
    if |h| > m && Gated(input, env) {
      if Grounded(input, env) {
        assert prepared.2 == Some(Grounding(input, env).2);
      } else {
        assert prepared.2 == None;
      }
    }
  }

  /** A session of the loop as written: turns are taken until the input list runs out or an exit word
      is typed, and the locals carry over from turn to turn. */
  function Session(s: LoopState, inputs: seq<string>, env: Env): (r: LoopState)
    ensures s.history <= r.history
    decreases |inputs|
  {
    if |inputs| == 0 then s
    else
      match Step(s, inputs[0], env)
      case Ended => s
      case Continued(next) =>
        var r := Session(next, inputs[1..], env);
        assert s.history <= next.history;
        r
  }

  /** The combined system prompt stays the first message for the whole session. */
  lemma SessionKeepsSystemPrompt(systemPrompt: string, inputs: seq<string>, env: Env)
    ensures var h := Session(Start(systemPrompt), inputs, env).history;
            |h| > 0 && h[0] == Message(System, systemPrompt)
  {
  }

  /** Nothing typed after an exit word is read. */
  lemma {:induction false} SessionStopsAtExit(s: LoopState, inputs: seq<string>, env: Env, k: nat)
    requires k < |inputs| && IsExit(inputs[k])
    ensures Session(s, inputs, env) == Session(s, inputs[..k], env)
    decreases k
  {
    if k > 0 {
      match Step(s, inputs[0], env)
      case Ended =>
      case Continued(next) =>
        SessionStopsAtExit(next, inputs[1..], env, k - 1);
        assert inputs[1..][..k - 1] == inputs[..k][1..];
    }
  }

  /** A session of the corrected loop, whose locals are scoped to the turn. */
  function SessionScoped(s: LoopState, inputs: seq<string>, env: Env): (r: LoopState)
    ensures s.history <= r.history
    decreases |inputs|
  {
    if |inputs| == 0 then s
    else
      match StepScoped(s, inputs[0], env)
      case Ended => s
      case Continued(next) =>
        var r := SessionScoped(next, inputs[1..], env);
        assert s.history <= next.history;
        r
  }

  /** A scoped session never carries gas data past a turn that fetched nothing: after a non-empty
      session the locals are those of the last turn, which are empty unless it fetched data. */
  lemma {:induction false} SessionScopedClearsLocals(s: LoopState, inputs: seq<string>, env: Env)
    requires |inputs| > 0
    requires forall k :: 0 <= k < |inputs| ==> !IsExit(inputs[k])
    ensures var last := inputs[|inputs| - 1];
            !Grounded(last, env) ==>
              SessionScoped(s, inputs, env).formatted.None? && SessionScoped(s, inputs, env).template.None?
    decreases |inputs|
  {
    var next := StepScoped(s, inputs[0], env).state;
    if |inputs| > 1 {
      SessionScopedClearsLocals(next, inputs[1..], env);
      assert inputs[1..][|inputs| - 2] == inputs[|inputs| - 1];
    }
  }

  /** The loop as written: on a turn whose tool branch runs but fetches nothing, a reply that names no
      field of the carried `formatted_values` is "corrected" with the template of an earlier turn. */
  lemma StaleTemplateCorrection(s: LoopState, input: string, env: Env)
    requires !IsExit(input) && Gated(input, env) && !Grounded(input, env)
    requires Truthy(env.chat(s.history + [Message(User, input)]))
    requires !MentionsGasData(env.chat(s.history + [Message(User, input)]).value, s.formatted)
    requires s.template.Some?
    ensures var reply := env.chat(s.history + [Message(User, input)]).value;
            Step(s, input, env)
            == Continued(LoopState(s.history + [Message(User, input), Message(Assistant, reply + CorrectionPrefix + s.template.value)],
                                   s.formatted, s.template))
  {
    var asked := s.history + [Message(User, input)];
    var prepared := (asked, s.formatted, s.template);
    assert Prepare(s.history, (s.formatted, s.template), input, env) == prepared;
    var reply := env.chat(asked).value;
    var corrected := reply + CorrectionPrefix + s.template.value;
    assert Verify(reply, s.formatted, s.template) == corrected;
    assert Respond(prepared, input, env) == LoopState(asked + [Message(Assistant, corrected)], s.formatted, s.template);
    assert asked + [Message(Assistant, corrected)] == s.history + [Message(User, input), Message(Assistant, corrected)];
  }

  /** The connection of the scenario below: chain 56 answers with a low price of 10 gwei, every other
      call raises; the chat model always answers "ok". */
  const BscOnly := Env(true,
                       (c: Call) => if c == GasPriceCall("56") then Answer(map["low" := Scalar("10")]) else Raise("timeout"),
                       (h: History) => Some("ok"))

  /** Such a turn is reachable from the start of a session: "gas price bsc" fetches a low price on
      chain 56; then "gas price" asks about Ethereum, whose call raises, and the reply "ok" is stored
      with the correction and the BSC template of the first turn. */
  lemma StaleTemplateReached()
    ensures var t1 := Step(Start("p"), "gas price bsc", BscOnly);
            && t1.Continued?
            && t1.state.formatted == Some([("low", "10")])
            && t1.state.template == Some(Template("bsc", [("low", "10")]))
            && Step(t1.state, "gas price", BscOnly)
               == Continued(LoopState(t1.state.history + [Message(User, "gas price"),
                                                          Message(Assistant, "ok" + CorrectionPrefix + t1.state.template.value)],
                                      t1.state.formatted, t1.state.template))
  {
    BscFirstTurn();
    StaleSecondTurn(Step(Start("p"), "gas price bsc", BscOnly).state);
  }

  /** After any turn that recorded the low price, "gas price" is answered "ok", and "ok" is corrected
      with the recorded template. */
  lemma StaleSecondTurn(s: LoopState)
    requires s.formatted == Some([("low", "10")]) && s.template.Some?
    ensures Step(s, "gas price", BscOnly)
            == Continued(LoopState(s.history + [Message(User, "gas price"),
                                                Message(Assistant, "ok" + CorrectionPrefix + s.template.value)],
                                   s.formatted, s.template))
  {
    GasPriceIsGated(BscOnly);
    assert BscOnly.chat(s.history + [Message(User, "gas price")]) == Some("ok");
    StaleReplyLacksData();
    StaleTemplateCorrection(s, "gas price", BscOnly);
  }

  /** The first turn of the scenario fetches and records the low price and the BSC template. */
  lemma BscFirstTurn()
    ensures var t1 := Step(Start("p"), "gas price bsc", BscOnly);
            && t1.Continued?
            && t1.state.formatted == Some([("low", "10")])
            && t1.state.template == Some(Template("bsc", [("low", "10")]))
  {
    assert !IsExit("gas price bsc") by {
      assert |Lower("gas price bsc")| == 13;
    }
    BscTurnFields(BscOnly);
    var t1 := Step(Start("p"), "gas price bsc", BscOnly);
    assert AskedShape(Start("p"), "gas price bsc", BscOnly, t1.state);
  }

  /** A turn asking "gas price bsc" is grounded by a connection that answers chain 56 with a low price. */
  lemma BscTurnGrounded(env: Env)
    requires env.apiTools && env.api(GasPriceCall("56")) == Answer(map["low" := Scalar("10")])
    ensures Grounded("gas price bsc", env)
  {
    GasPriceBscCall(env.api);
    assert Accepted(map["low" := Scalar("10")]);
  }

  /** Such a turn formats exactly the low price, under the BSC template. */
  lemma BscTurnFields(env: Env)
    requires env.apiTools && env.api(GasPriceCall("56")) == Answer(map["low" := Scalar("10")])
    ensures Grounded("gas price bsc", env)
    ensures Grounding("gas price bsc", env).0 == [("low", "10")]
    ensures Grounding("gas price bsc", env).2 == Template("bsc", [("low", "10")])
  {
    BscTurnGrounded(env);
    GasPriceOnBsc();
    GasPriceBscCall(env.api);
    assert GetGasPrice(DetectGas("gas price bsc"), None, env.api).result.payload == map["low" := Scalar("10")];
    LowOnlyFormat();
  }

  /** A payload carrying only a low price formats to that one field. */
  lemma LowOnlyFormat()
    ensures FormatGasFields(map["low" := Scalar("10")]).0 == [("low", "10")]
  {
    var p := map["low" := Scalar("10")];
    var f := FormatGasFields(p).0;
    assert GasFields[0].0 in p;
    assert f[0].0 in p;
  }

  /** The reply "ok" names no gas field. */
  lemma StaleReplyLacksData()
    ensures !MentionsGasData("ok", Some([("low", "10")]))
  {
    ShortNotContains("ok", "baseFee");
    ShortNotContains("ok", "Base Fee");
    ShortNotContains("ok", "low");
    CapitalizeWord("low", "Low");
    ShortNotContains("ok", "Low");
  }

  /** With turn-scoped locals a turn that fetches nothing keeps the reply as it is. */
  lemma ScopedKeepsReply(s: LoopState, input: string, env: Env)
    requires !IsExit(input) && !Grounded(input, env)
    requires Truthy(env.chat(s.history + [Message(User, input)]))
    ensures var reply := env.chat(s.history + [Message(User, input)]).value;
            StepScoped(s, input, env)
            == Continued(LoopState(s.history + [Message(User, input), Message(Assistant, reply)], None, None))
  {
    var asked := s.history + [Message(User, input)];
    var reply := env.chat(asked).value;
    assert Prepare(s.history, (None, None), input, env) == (asked, None, None);
    assert Verify(reply, None, None) == reply;
    assert Respond((asked, None, None), input, env) == LoopState(asked + [Message(Assistant, reply)], None, None);
    assert asked + [Message(Assistant, reply)] == s.history + [Message(User, input), Message(Assistant, reply)];
  }

  /** "gas price" asks about Ethereum, so with an "api_tools" connection the tool branch runs, and a
      connection that raises on chain 1 grounds nothing. */
  lemma GasPriceIsGated(env: Env)
    requires env.apiTools
    requires env.api(GasPriceCall("1")).Raise?
    ensures Gated("gas price", env) && !Grounded("gas price", env) && !IsExit("gas price")
  {
    DetectsGasPrice();
    assert |Lower("gas price")| == 9;
    GasPriceEthereumCall(env.api);
  }
}

=== FILE: common.dfy ===
/** Shared wrapper types used across the model. */
module Common {

  /** A value that may be absent (Python's `None`). */
  datatype Option<+T> = None | Some(value: T)

  /** Python truthiness of an optional string argument: present and non-empty. */
  predicate Truthy(o: Option<string>)
  {
    o.Some? && |o.value| > 0
  }
}

=== FILE: detect.dfy ===
/**
 * The rule-based intent detectors of `src/actions/api_tools_actions.py`: `detect_gas_price_query`
 * and `detect_transaction_history_query`, with the network scan and the wallet-address scanner.
 */
module Detect {
  import opened Common
  import opened Text
  import opened Patterns
  import opened Chains

  /** The five gas-price patterns, searched in the lower-cased text. */
  const GasPatterns: seq<Pattern> := [
    // (?:what(?:'s| is) the|current|check|get|show) (?:gas|gas price|gas fee)
    Cat(Alt(Cat(Lit("what"), Cat(Choice(["'s", " is"]), Lit(" the"))),
            Choice(["current", "check", "get", "show"])),
        Cat(Lit(" "), Choice(["gas", "gas price", "gas fee"]))),
    // gas (?:price|fee|cost)
    Cat(Lit("gas "), Choice(["price", "fee", "cost"])),
    // how much (?:gas|fee)
    Cat(Lit("how much "), Choice(["gas", "fee"])),
    Lit("transaction fee"),
    Lit("network fee")
  ]

  /** The four transaction-history patterns, searched in the lower-cased text. */
  const TxPatterns: seq<Pattern> := [
    // (?:what(?:'s| are) the|show|get|fetch|check) (?:transactions|tx|history)
    Cat(Alt(Cat(Lit("what"), Cat(Choice(["'s", " are"]), Lit(" the"))),
            Choice(["show", "get", "fetch", "check"])),
        Cat(Lit(" "), Choice(["transactions", "tx", "history"]))),
    // transaction (?:history|list)
    Cat(Lit("transaction "), Choice(["history", "list"])),
    // wallet (?:history|transactions)
    Cat(Lit("wallet "), Choice(["history", "transactions"])),
    // what (?:happened|occurred) in (?:wallet|address)
    Cat(Lit("what "), Cat(Choice(["happened", "occurred"]), Cat(Lit(" in "), Choice(["wallet", "address"]))))
  ]

  /** The first gas pattern denotes the eighteen phrases formed by one of six openings ("what's the",
      "what is the", "current", "check", "get", "show") followed by one of three gas words. */
  lemma FirstGasPatternPhrases()
    ensures Words(GasPatterns[0]) == Product(["what's the", "what is the", "current", "check", "get", "show"],
                                             [" gas", " gas price", " gas fee"])
  {
    FirstGasPatternLead();
    FirstGasPatternTail();
  }

  lemma FirstGasPatternLead()
    ensures Words(GasPatterns[0].left) == ["what's the", "what is the", "current", "check", "get", "show"]
  {
    ChoiceWords(["'s", " is"]);
    ChoiceWords(["current", "check", "get", "show"]);
    var verbs := ["'s", " is"];
    assert verbs[1..] == [" is"];
    assert " is" + " the" == " is the";
    assert [" is" + " the"] == [" is the"];
    assert Prefixed(" is", [" the"]) == [" is the"];
    assert Product(verbs[1..], [" the"]) == [" is the"];
    assert "'s" + " the" == "'s the";
    assert ["'s" + " the"] == ["'s the"];
    assert Prefixed("'s", [" the"]) == ["'s the"];
    assert Product(verbs, [" the"]) == ["'s the", " is the"];
    var ends := ["'s the", " is the"];
    assert "what" + " is the" == "what is the";
    assert ["what" + " is the"] == ["what is the"];
    assert Prefixed("what", ends[1..]) == ["what is the"];
    assert Prefixed("what", ends) == ["what" + "'s the"] + Prefixed("what", ends[1..]);
    assert "what" + "'s the" == "what's the";
    assert Prefixed("what", ends) == ["what's the", "what is the"];
    assert Product(["what"], ends) == Prefixed("what", ends) + Product([], ends);
  }

  lemma FirstGasPatternTail()
    ensures Words(GasPatterns[0].right) == [" gas", " gas price", " gas fee"]
  {
    var fees := ["gas", "gas price", "gas fee"];
    ChoiceWords(fees);
    assert " " + "gas fee" == " gas fee";
    assert [" " + "gas fee"] == [" gas fee"];
    assert Prefixed(" ", fees[2..]) == [" gas fee"];
    assert Prefixed(" ", fees[1..]) == [" " + "gas price"] + Prefixed(" ", fees[2..]);
    assert " " + "gas price" == " gas price";
    assert " " + "gas" == " gas";
    assert Prefixed(" ", fees) == [" gas", " gas price", " gas fee"];
    assert Product([" "], fees) == Prefixed(" ", fees) + Product([], fees);
  }

  /** `j` is the first table alias, in definition order, occurring in `t`. */
  predicate FirstMentioned(t: string, j: nat)
  {
    j < |NetworkTable| && Contains(t, NetworkTable[j].0)
    && forall i :: 0 <= i < j ==> !Contains(t, NetworkTable[i].0)
  }

  /** No table alias occurs in `t`. */
  predicate NoneMentioned(t: string)
  {
    forall j :: 0 <= j < |NetworkTable| ==> !Contains(t, NetworkTable[j].0)
  }

  /** Index of the first alias at or after `from` occurring in `t`. */
  function MentionFrom(t: string, from: nat): (r: Option<nat>)
    requires from <= |NetworkTable|
    ensures r.Some? ==> from <= r.value < |NetworkTable| && Contains(t, NetworkTable[r.value].0)
    ensures r.Some? ==> forall i :: from <= i < r.value ==> !Contains(t, NetworkTable[i].0)
    ensures r.None? ==> forall i :: from <= i < |NetworkTable| ==> !Contains(t, NetworkTable[i].0)
    decreases |NetworkTable| - from
  {
    if from == |NetworkTable| then None
    else if Contains(t, NetworkTable[from].0) then Some(from)
    else MentionFrom(t, from + 1)
  }

  /** The network both detectors report for lower-cased text `t`: the first alias occurring in it, in
      definition order, else "ethereum". */
  function MentionedNetwork(t: string): (r: string)
    ensures IsNetwork(r)
    ensures forall j: nat :: FirstMentioned(t, j) ==> r == NetworkTable[j].0
    ensures NoneMentioned(t) ==> r == "ethereum"
  {
    assert NetworkTable[0].0 == "ethereum";
    match MentionFrom(t, 0)
    case Some(j) =>
      assert forall k: nat :: FirstMentioned(t, k) ==> k == j;
      NetworkTable[j].0
    case None => "ethereum"
  }

  /** `detect_gas_price_query`: None when no gas pattern matches the lower-cased text, otherwise the
      mentioned network. */
  function DetectGas(text: string): (r: Option<string>)
    ensures r.None? <==> !AnyMatch(GasPatterns, Lower(text))
    ensures r.Some? ==> IsNetwork(r.value)
    ensures r.Some? ==> forall j: nat :: FirstMentioned(Lower(text), j) ==> r.value == NetworkTable[j].0
    ensures r.Some? && NoneMentioned(Lower(text)) ==> r.value == "ethereum"
  {
    var t := Lower(text);
    if AnyMatch(GasPatterns, t) then Some(MentionedNetwork(t)) else None
  }

  /** The gas detector answers exactly when the lower-cased text contains one of the phrases the five
      gas patterns denote. */
  lemma DetectGasPhrases(text: string)
    ensures DetectGas(text).None? <==> forall w :: w in Phrases(GasPatterns) ==> !Contains(Lower(text), w)
  {
    AnyMatchIff(GasPatterns, Lower(text));
  }

  /** "gas price" is one of the phrases of the second gas pattern. */
  lemma GasPricePhrase()
    ensures "gas price" in Phrases(GasPatterns)
  {
    ChoiceWords(["price", "fee", "cost"]);
    ProductIntro(["gas "], ["price", "fee", "cost"], "gas ", "price");
    assert "gas " + "price" == "gas price";
    assert Words(GasPatterns[1]) == Product(["gas "], ["price", "fee", "cost"]);
    assert "gas price" in Words(GasPatterns[1]);
  }

  /** The bare phrase "gas price" is a gas intent, and the detected network is a non-empty alias. */
  lemma DetectsGasPrice()
    ensures Truthy(DetectGas("gas price"))
  {
    assert Lower("gas price") == "gas price";
    GasPricePhrase();
    ContainsSelf("gas price");
    DetectGasPhrases("gas price");
    NetworkNonEmpty(DetectGas("gas price").value);
  }

  /** "gas price" names no network, so it is a question about Ethereum. */
  lemma GasPriceOnEthereum()
    ensures DetectGas("gas price") == Some("ethereum")
  {
    LowerOfLowerCase("gas price");
    assert DetectGas("gas price").Some? by {
      DetectsGasPrice();
    }
    GasPriceNamesNoNetwork();
  }

  /** Every alias uses a letter that "gas price" lacks. */
  lemma GasPriceNamesNoNetwork()
    ensures NoneMentioned("gas price")
  {
    var t := "gas price";
    forall j | 0 <= j < |NetworkTable|
      ensures !Contains(t, NetworkTable[j].0)
    {
      if j == 0 {
        MissingCharNotContains(t, "ethereum", 2);
      } else if j == 1 {
        MissingCharNotContains(t, "eth", 2);
      } else if j == 2 {
        MissingCharNotContains(t, "mainnet", 0);
      } else if j == 3 {
        MissingCharNotContains(t, "binance", 0);
      } else if j == 4 {
        MissingCharNotContains(t, "bsc", 0);
      } else if j == 5 {
        MissingCharNotContains(t, "polygon", 1);
      } else if j == 6 {
        MissingCharNotContains(t, "matic", 0);
      } else if j == 7 {
        MissingCharNotContains(t, "avalanche", 1);
      } else if j == 8 {
        MissingCharNotContains(t, "avax", 1);
      } else if j == 9 {
        MissingCharNotContains(t, "arbitrum", 2);
      } else if j == 10 {
        MissingCharNotContains(t, "optimism", 0);
      } else if j == 11 {
        MissingCharNotContains(t, "base", 0);
      } else if j == 12 {
        MissingCharNotContains(t, "fantom", 0);
      } else {
        MissingCharNotContains(t, "ftm", 0);
      }
    }
  }

  /** "gas price bsc" asks about BNB Smart Chain: "bsc" is the first alias it contains. */
  lemma GasPriceOnBsc()
    ensures DetectGas("gas price bsc") == Some("bsc")
  {
    var t := "gas price bsc";
    LowerOfLowerCase(t);
    assert DetectGas(t).Some? by {
      GasPricePhrase();
      ContainsPrefix(t, "gas price");
      DetectGasPhrases(t);
    }
    BscFirstMentioned();
  }

  /** "bsc" occurs in "gas price bsc" and none of the four aliases listed before it does. */
  lemma BscFirstMentioned()
    ensures FirstMentioned("gas price bsc", 4)
  {
    var t := "gas price bsc";
    assert OccursAt(t, "bsc", 10);
    MissingCharNotContains(t, "ethereum", 2);
    MissingCharNotContains(t, "eth", 2);
    MissingCharNotContains(t, "mainnet", 0);
    MissingCharNotContains(t, "binance", 2);
    assert FirstMentioned(t, 4);
  }

  /** The detector sees only the lower-cased text. */
  lemma DetectGasIgnoresCase(a: string, b: string)
    requires Lower(a) == Lower(b)
    ensures DetectGas(a) == DetectGas(b)
  {
  }

  predicate IsHexDigit(c: char)
  {
    '0' <= c <= '9' || 'a' <= c <= 'f' || 'A' <= c <= 'F'
  }

  /** `0x[a-fA-F0-9]{40}` matches at index `i` of `t` (case-sensitive `0x`). */
  predicate AddressAt(t: string, i: nat)
  {
    i + 42 <= |t| && t[i] == '0' && t[i + 1] == 'x'
    && forall k :: i + 2 <= k < i + 42 ==> IsHexDigit(t[k])
  }

  /** `i` is where `re.search` reports the address: the leftmost match. */
  predicate LeftmostAddress(t: string, i: nat)
  {
    AddressAt(t, i) && forall k :: 0 <= k < i ==> !AddressAt(t, k)
  }

  /** The leftmost index at or after `from` where an address starts. */
  function AddressFrom(t: string, from: nat): (r: Option<nat>)
    requires from <= |t|
    ensures r.Some? ==> from <= r.value && AddressAt(t, r.value)
    ensures r.Some? ==> forall k :: from <= k < r.value ==> !AddressAt(t, k)
    ensures r.None? ==> forall k :: from <= k <= |t| ==> !AddressAt(t, k)
    decreases |t| - from
  {
    if from + 42 > |t| then None
    else if AddressAt(t, from) then Some(from)
    else AddressFrom(t, from + 1)
  }

  /** `re.search(eth_address_pattern, text)` on the original (not lower-cased) text. */
  function FindAddress(text: string): (r: Option<string>)
    ensures r.None? <==> forall k :: 0 <= k <= |text| ==> !AddressAt(text, k)
    ensures r.Some? ==> |r.value| == 42 && r.value[..2] == "0x"
    ensures forall i: nat :: LeftmostAddress(text, i) ==> r == Some(text[i..i + 42])
  {
    match AddressFrom(text, 0)
    case None => None
    case Some(i) =>
      assert forall k: nat :: LeftmostAddress(text, k) ==> k == i;
      Some(text[i..i + 42])
  }

  /** `detect_transaction_history_query`: (wallet, network), or (None, None) when no pattern matches. */
  function DetectTx(text: string): (r: (Option<string>, Option<string>))
    ensures r.1.None? <==> !AnyMatch(TxPatterns, Lower(text))
    ensures r.1.None? ==> r.0.None?
    ensures r.0.Some? ==> |r.0.value| == 42
    ensures r.1.Some? ==> IsNetwork(r.1.value)
    ensures r.1.Some? ==> forall j: nat :: FirstMentioned(Lower(text), j) ==> r.1.value == NetworkTable[j].0
    ensures r.1.Some? && NoneMentioned(Lower(text)) ==> r.1.value == "ethereum"
    ensures r.1.Some? ==> (r.0.None? <==> forall k :: 0 <= k <= |text| ==> !AddressAt(text, k))
    ensures r.1.Some? ==> forall i: nat :: LeftmostAddress(text, i) ==> r.0 == Some(text[i..i + 42])
  {
    var t := Lower(text);
    if AnyMatch(TxPatterns, t) then (FindAddress(text), Some(MentionedNetwork(t))) else (None, None)
  }

  /** The history detector answers exactly when the lower-cased text contains one of the phrases the
      four history patterns denote. */
  lemma DetectTxPhrases(text: string)
    ensures DetectTx(text).1.None? <==> forall w :: w in Phrases(TxPatterns) ==> !Contains(Lower(text), w)
  {
    AnyMatchIff(TxPatterns, Lower(text));
  }

  /** On text both detectors accept, they agree on the network. */
  lemma DetectorsAgreeOnNetwork(text: string)
    ensures DetectGas(text).Some? && DetectTx(text).1.Some? ==> DetectGas(text) == DetectTx(text).1
  {
  }
}

=== FILE: patterns.dfy ===
/**
 * The fragment of Python regular expressions the intent detectors use: literal text, concatenation
 * and non-capturing alternation `(?:a|b)`, searched anywhere in the text (`re.search`, no anchors,
 * no character classes, no repetition). Such a pattern denotes a finite set of phrases, so a search
 * succeeds exactly when the text contains one of them.
 */
module Patterns {
  import opened Text

  datatype Pattern = Lit(s: string) | Cat(left: Pattern, right: Pattern) | Alt(left: Pattern, right: Pattern)

  /** `(?:w0|w1|...)` over literal words. */
  function Choice(words: seq<string>): Pattern
    requires |words| > 0
    decreases |words|
  {
    if |words| == 1 then Lit(words[0]) else Alt(Lit(words[0]), Choice(words[1..]))
  }

  /** The end positions `j` such that `t[i..j]` matches `p` (backtracking explores all of them). */
  function Ends(p: Pattern, t: string, i: nat): (r: set<nat>)
    requires i <= |t|
    ensures forall j :: j in r ==> i <= j <= |t|
  {
    match p
    case Lit(s) => if OccursAt(t, s, i) then {i + |s|} else {}
    case Alt(a, b) => Ends(a, t, i) + Ends(b, t, i)
    case Cat(a, b) => set j, k | j in Ends(a, t, i) && k in Ends(b, t, j) :: k
  }

  /** `re.search(p, t)` finds a match. */
  predicate Search(p: Pattern, t: string)
  {
    exists i :: 0 <= i <= |t| && Ends(p, t, i) != {}
  }

  /** Some pattern of the list finds a match (Python's `any(re.search(p, t) for p in ps)`). */
  predicate AnyMatch(ps: seq<Pattern>, t: string)
  {
    exists n :: 0 <= n < |ps| && Search(ps[n], t)
  }

  /** Every concatenation of a word of `xs` with a word of `ys`, in order. */
  function Product(xs: seq<string>, ys: seq<string>): seq<string>
  {
    if |xs| == 0 then [] else Prefixed(xs[0], ys) + Product(xs[1..], ys)
  }

  function Prefixed(x: string, ys: seq<string>): seq<string>
  {
    if |ys| == 0 then [] else [x + ys[0]] + Prefixed(x, ys[1..])
  }

  lemma PrefixedIntro(x: string, ys: seq<string>, y: string)
    requires y in ys
    ensures x + y in Prefixed(x, ys)
  {
    if ys[0] != y {
      PrefixedIntro(x, ys[1..], y);
    }
  }

  lemma PrefixedElim(x: string, ys: seq<string>, w: string)
    requires w in Prefixed(x, ys)
    ensures exists y :: y in ys && w == x + y
  {
    if w != x + ys[0] {
      PrefixedElim(x, ys[1..], w);
      var y :| y in ys[1..] && w == x + y;
      assert y in ys;
    }
  }

  lemma {:induction false} ProductIntro(xs: seq<string>, ys: seq<string>, x: string, y: string)
    requires x in xs && y in ys
    ensures x + y in Product(xs, ys)
  {
    if xs[0] == x {
      PrefixedIntro(x, ys, y);
    } else {
      ProductIntro(xs[1..], ys, x, y);
    }
  }

  lemma {:induction false} ProductElim(xs: seq<string>, ys: seq<string>, w: string)
    requires w in Product(xs, ys)
    ensures exists x, y :: x in xs && y in ys && w == x + y
  {
    if w in Prefixed(xs[0], ys) {
      PrefixedElim(xs[0], ys, w);
    } else {
      ProductElim(xs[1..], ys, w);
      var x, y :| x in xs[1..] && y in ys && w == x + y;
      assert x in xs;
    }
  }

  /** The finite set of phrases `p` denotes, as a list. */
  function Words(p: Pattern): seq<string>
  {
    match p
    case Lit(s) => [s]
    case Alt(a, b) => Words(a) + Words(b)
    case Cat(a, b) => Product(Words(a), Words(b))
  }

  /** An alternation of literal words denotes exactly those words, in order. */
  lemma {:induction false} ChoiceWords(words: seq<string>)
    requires |words| > 0
    ensures Words(Choice(words)) == words
    decreases |words|
  {
    if |words| > 1 {
      ChoiceWords(words[1..]);
    }
  }

  /** The phrases of all patterns of a list, pattern by pattern. */
  function Phrases(ps: seq<Pattern>): (r: seq<string>)
    ensures forall n, w :: 0 <= n < |ps| && w in Words(ps[n]) ==> w in r
    ensures forall w :: w in r ==> exists n :: 0 <= n < |ps| && w in Words(ps[n])
  {
    if |ps| == 0 then [] else Words(ps[0]) + Phrases(ps[1..])
  }

  /** Some phrase of `p` occurs in `t` from `i` up to `k`. */
  predicate PhraseBetween(p: Pattern, t: string, i: nat, k: nat)
  {
    exists w :: w in Words(p) && i + |w| == k && OccursAt(t, w, i)
  }

  lemma CatEndsElim(a: Pattern, b: Pattern, t: string, i: nat, k: nat)
    requires i <= |t|
    requires k in Ends(Cat(a, b), t, i)
    ensures exists j :: j in Ends(a, t, i) && k in Ends(b, t, j)
  {
  }

  lemma CatEndsIntro(a: Pattern, b: Pattern, t: string, i: nat, j: nat, k: nat)
    requires i <= |t|
    requires j in Ends(a, t, i) && k in Ends(b, t, j)
    ensures k in Ends(Cat(a, b), t, i)
  {
  }

  lemma CatPhraseIntro(a: Pattern, b: Pattern, t: string, i: nat, j: nat, k: nat)
    requires PhraseBetween(a, t, i, j) && PhraseBetween(b, t, j, k)
    ensures PhraseBetween(Cat(a, b), t, i, k)
  {
    var x :| x in Words(a) && i + |x| == j && OccursAt(t, x, i);
    var y :| y in Words(b) && j + |y| == k && OccursAt(t, y, j);
    CatOccurs(t, x, y, i);
    ProductIntro(Words(a), Words(b), x, y);
  }

  /** Every end position the matcher reports is the end of one of the phrases of `p`. */
  lemma {:induction false} EndsSound(p: Pattern, t: string, i: nat, k: nat)
    requires i <= |t|
    requires k in Ends(p, t, i)
    ensures PhraseBetween(p, t, i, k)
  {
    match p
    case Lit(s) =>
      assert s in Words(p);
    case Alt(a, b) =>
      if k in Ends(a, t, i) {
        EndsSound(a, t, i, k);
      } else {
        EndsSound(b, t, i, k);
      }
      assert Words(p) == Words(a) + Words(b);
    case Cat(a, b) =>
      CatEndsElim(a, b, t, i, k);
      var j :| j in Ends(a, t, i) && k in Ends(b, t, j);
      EndsSound(a, t, i, j);
      EndsSound(b, t, j, k);
      CatPhraseIntro(a, b, t, i, j, k);
  }

  lemma CatOccurs(t: string, x: string, y: string, i: nat)
    requires OccursAt(t, x, i) && OccursAt(t, y, i + |x|)
    ensures OccursAt(t, x + y, i)
  {
    assert t[i..i + |x| + |y|] == t[i..i + |x|] + t[i + |x|..i + |x| + |y|];
  }

  lemma CatSplits(t: string, x: string, y: string, i: nat)
    requires OccursAt(t, x + y, i)
    ensures OccursAt(t, x, i) && OccursAt(t, y, i + |x|)
  {
    assert t[i..i + |x|] == (x + y)[..|x|];
    assert t[i + |x|..i + |x| + |y|] == (x + y)[|x|..];
  }

  /** Every occurrence of a phrase of `p` is found by the matcher. */
  lemma {:induction false} EndsComplete(p: Pattern, t: string, i: nat, w: string)
    requires i <= |t|
    requires w in Words(p) && OccursAt(t, w, i)
    ensures i + |w| in Ends(p, t, i)
  {
    match p
    case Lit(s) =>
    case Alt(a, b) =>
      if w in Words(a) {
        EndsComplete(a, t, i, w);
      } else {
        EndsComplete(b, t, i, w);
      }
    case Cat(a, b) =>
      ProductElim(Words(a), Words(b), w);
      var x, y :| x in Words(a) && y in Words(b) && w == x + y;
      CatSplits(t, x, y, i);
      EndsComplete(a, t, i, x);
      EndsComplete(b, t, i + |x|, y);
      CatEndsIntro(a, b, t, i, i + |x|, i + |x| + |y|);
      assert i + |w| == i + |x| + |y|;
  }

  /** `re.search(p, t)` succeeds exactly when `t` contains one of the phrases of `p`. */
  lemma SearchIff(p: Pattern, t: string)
    ensures Search(p, t) <==> exists w :: w in Words(p) && Contains(t, w)
  {
    if Search(p, t) {
      var i :| 0 <= i <= |t| && Ends(p, t, i) != {};
      var k :| k in Ends(p, t, i);
      EndsSound(p, t, i, k);
      var w :| w in Words(p) && i + |w| == k && OccursAt(t, w, i);
    }
    if exists w :: w in Words(p) && Contains(t, w) {
      var w :| w in Words(p) && Contains(t, w);
      var i :| 0 <= i <= |t| && OccursAt(t, w, i);
      EndsComplete(p, t, i, w);
    }
  }

  /** A list of patterns matches exactly when the text contains one of their phrases. */
  lemma AnyMatchIff(ps: seq<Pattern>, t: string)
    ensures AnyMatch(ps, t) <==> exists w :: w in Phrases(ps) && Contains(t, w)
  {
    forall n | 0 <= n < |ps| {
      SearchIff(ps[n], t);
    }
  }
}

=== FILE: text.dfy ===
/** ASCII string helpers: Python's `str.lower`, `str.capitalize` and the `in` substring test. */
module Text {

  function LowerChar(c: char): char
  {
    if 'A' <= c <= 'Z' then (c as int + 32) as char else c
  }

  function UpperChar(c: char): char
  {
    if 'a' <= c <= 'z' then (c as int - 32) as char else c
  }

  /** `s.lower()` restricted to ASCII letters. */
  function Lower(s: string): (r: string)
    ensures |r| == |s|
    ensures forall i :: 0 <= i < |s| ==> r[i] == LowerChar(s[i])
  {
    seq(|s|, i requires 0 <= i < |s| => LowerChar(s[i]))
  }

  /** `s.capitalize()` restricted to ASCII letters: first character upper-cased, the rest lower-cased. */
  function Capitalize(s: string): (r: string)
    ensures |r| == |s|
    ensures |s| > 0 ==> r[0] == UpperChar(s[0]) && r[1..] == Lower(s[1..])
  {
    if |s| == 0 then "" else [UpperChar(s[0])] + Lower(s[1..])
  }

  /** `w` occurs in `t` starting at index `i`. */
  predicate OccursAt(t: string, w: string, i: int)
  {
    0 <= i && i + |w| <= |t| && t[i..i + |w|] == w
  }

  /** Python's `w in t` for strings. */
  predicate Contains(t: string, w: string)
  {
    exists i :: 0 <= i <= |t| && OccursAt(t, w, i)
  }

  lemma ContainsSelf(t: string)
    ensures Contains(t, t)
  {
    assert OccursAt(t, t, 0);
  }

  lemma ContainsInLeft(a: string, b: string, w: string)
    requires Contains(a, w)
    ensures Contains(a + b, w)
  {
    var i :| 0 <= i <= |a| && OccursAt(a, w, i);
    assert (a + b)[i..i + |w|] == a[i..i + |w|];
    assert OccursAt(a + b, w, i);
  }

  lemma ContainsInRight(a: string, b: string, w: string)
    requires Contains(b, w)
    ensures Contains(a + b, w)
  {
    var i :| 0 <= i <= |b| && OccursAt(b, w, i);
    assert (a + b)[|a| + i..|a| + i + |w|] == b[i..i + |w|];
    assert OccursAt(a + b, w, |a| + i);
  }

  /** Containment is transitive. */
  lemma ContainsTransitive(t: string, m: string, w: string)
    requires Contains(t, m) && Contains(m, w)
    ensures Contains(t, w)
  {
    var i :| 0 <= i <= |t| && OccursAt(t, m, i);
    var k :| 0 <= k <= |m| && OccursAt(m, w, k);
    forall x | 0 <= x < |w|
      ensures t[i + k + x] == w[x]
    {
      assert t[i + k + x] == t[i..i + |m|][k + x] == m[k + x] == m[k..k + |w|][x];
    }
    assert t[i + k..i + k + |w|] == w;
    assert OccursAt(t, w, i + k);
  }

  /** A string always contains each of its prefixes. */
  lemma ContainsPrefix(t: string, w: string)
    requires w <= t
    ensures Contains(t, w)
  {
    assert t[0..|w|] == w;
    assert OccursAt(t, w, 0);
  }

  /** A string shorter than `w` cannot contain it. */
  lemma ShortNotContains(t: string, w: string)
    requires |t| < |w|
    ensures !Contains(t, w)
  {
  }

  /** A string in which the character `c` never appears contains no word that uses `c`. */
  lemma MissingCharNotContains(t: string, w: string, k: nat)
    requires k < |w|
    requires w[k] !in t
    ensures !Contains(t, w)
  {
  }

  /** `s.capitalize()` of a word with no upper-case letter after the first: the first letter upper-cased,
      the rest as it is. */
  lemma CapitalizeWord(s: string, r: string)
    requires |s| == |r| > 0 && r[0] == UpperChar(s[0])
    requires forall i :: 1 <= i < |s| ==> r[i] == s[i] && !('A' <= s[i] <= 'Z')
    ensures Capitalize(s) == r
  {
    var c := Capitalize(s);
    forall i | 0 <= i < |s|
      ensures c[i] == r[i]
    {
      if i > 0 {
        assert c[i] == c[1..][i - 1] == Lower(s[1..])[i - 1] == LowerChar(s[i]);
      }
    }
  }

  /** A string without upper-case letters is its own lower-case form. */
  lemma LowerOfLowerCase(s: string)
    requires forall i :: 0 <= i < |s| ==> !('A' <= s[i] <= 'Z')
    ensures Lower(s) == s
  {
  }
}
